=== FILE: README.md ===
# A Dafny model of the dashboard's store modules

The project models four state stores of a browser dashboard for remote devices:

- **videos**: playback of live video over WHEP. The store keeps a registry of peer connections keyed by mount. A session runs the offer, local-description, candidate-gathering, POST and answer sequence against `<base>/<mount>/whep`. The store also keeps two global playback flags and tears sessions down on request or when the ICE connection fails.
- **mqtt**: bookkeeping around an MQTT client:
  - a newest-first message history capped at 100 messages;
  - a duplicate-free list of subscribed topics;
  - the guard chains of `connect`, `disconnect`, `subscribe`, `unsubscribe` and `publish`;
  - first-match waiting for a message;
  - `getTopicByStreamURL`, which derives a device's control topic from its stream URL.
- **joystick**: keyboard and gamepad input mapped onto sixteen button flags, with key-repeat suppression, a held-key set, and the listen/stop lifecycle of the polling timer and the window listeners.
- **auth**: one static account, and a session saved in local storage and reloaded at startup.

Each store is a Dafny module of immutable datatypes and pure transition functions. The two waits (ICE gathering and `waitForMessage`) are methods with loops.

Browser, network and library effects enter as parameters:

- **Peer connections** are opaque handles. Closing one adds it to the page's set of closed connections.
- **The offer/answer exchange.** Each run says which awaited step throws, if any, plus the local SDP, the HTTP status and the answer body.
- **The page.** Elements are a map from element id to the element's media. A set (`nonMedia`) lists the elements that are not media elements and so have no `play`. A map (`selects`) gives, for an id no element has, the video element its fallback selector `video#<id>` matches. A set lists the ids whose fallback selector is invalid.
- **Libraries.** `encodeURIComponent` and the URL parser's pathname are function parameters.
- **The MQTT library.** What it returns or reports is a parameter of the action that receives it: a client, a thrown error, a SUBACK or a callback error.
- **Local storage** is a map from key to the parsed record.

Shared helpers live in `common.dfy`:

- `Outcomes`: an option type and the two ways a promise settles.
- `Seqs`: `Array.prototype.filter`, duplicate-freedom and subsequences.
- `Text`: JavaScript's white-space class, `split`, `join` and the replace that turns each run of white space into one underscore.

### Behaviour worth knowing

These are consequences of the code as written, and the model keeps them:

- **A failed start keeps the old entry.** After a failed start, any earlier registry entry for the mount is still in place (`Videos.PlayFailure`).
- **`stopPlaying` can reject.** The element lookup in `stopPlaying` sits outside any `try`. When no element has the id and `video#<id>` is not a valid selector, `querySelector` throws. The connection is then already closed and unregistered, but both flags keep their values (`Videos.StopPlaying`).
- **No duplicate-stop guard.** `failed` followed by `disconnected` runs `stopPlaying` twice. The second run changes nothing (`Videos.RepeatedIceFailure`).
- **A non-media element stops `ontrack` short.** When the element with the id is not a media element (neither video nor audio), the media is assigned but the missing `play` throws, so `streamIsPlaying` stays as it was (`Videos.OnTrack`).
- **The fallback selector can find another element.** When no element has the id, `video#<id>` can match a video element whose id differs: an id such as `a.b` reads as id `a` and class `b`. Track events and stops then act on that element (`Videos.LookUp`).
- **A reconnect leaks the old MQTT client.** `connect` while a client exists but is not connected replaces `state.client` without ending the old one. The old client's handlers keep committing, so once both are up, every message both receive is added twice (`Mqtt.ReplacedClientDeliversTwice`).
- **A restart leaks the old connection.** A second successful start for a mount overwrites its registry entry without closing the old connection (`Videos.RestartLeaksPreviousConnection`).
- **The ICE handler stops by mount.** The handler belongs to one connection but stops whatever is registered under the mount. A stale connection failing tears down the current session (`Videos.StaleFailureStopsCurrentSession`).

## Model

| member | source | states |
|---|---|---|
| Seqs.Filter | src/store/mqtt.js:31 | `filter` keeps exactly the elements the predicate accepts, with their multiplicities, in their original order, and never grows the sequence |
| Text.Split | src/store/mqtt.js:250 | `split('/')` yields at least one piece and no piece contains the separator |
| Text.JoinSplit | src/store/mqtt.js:249-250 | joining the pieces of a split with the same separator gives the string back |
| Text.SplitJoin | src/store/mqtt.js:249-250 | splitting a join of separator-free pieces gives those pieces back |
| Text.CollapseSpaces | src/store/mqtt.js:252 | the replace leaves no white space, maps empty to empty only, never lengthens, and agrees with the character-by-character scan in which white space starting a run becomes one underscore, white space inside a run vanishes and every other character is copied |
| Text.ScanSpaces | src/store/mqtt.js:252 | the reference scan produces no white space and never lengthens its input |
| Text.ScanKeepsText | src/store/mqtt.js:252 | the scan keeps every character other than white space and underscore, in order and with its multiplicity |
| Text.CollapseSpacesKeepsText | src/store/mqtt.js:252 | the replace keeps the other characters in order and with their multiplicity, so each such character occurs in the result exactly when it occurs in the input |
| Text.CollapseSpacesIdentity | src/store/mqtt.js:252 | a segment without white space is unchanged by the replacement |
| Videos.Initial | src/store/videos.js:3-20 | the store starts with no sessions and no metadata, both playback flags false and toggling allowed; it counts as initialised exactly when a base URL is configured |
| Videos.SetStream | src/store/videos.js:23-31 | an undefined stream deletes the id; anything else, `null` included, is stored under it; every other id and every other field is unchanged |
| Videos.SetProp | src/store/videos.js:35-37 | the assigned property reads back as the value, the other boolean properties read as before, and the registry, metadata and base are untouched |
| Videos.SetWebrtcPc | src/store/videos.js:41-43 | the mount maps to the new connection, replacing any earlier one; other mounts and other fields are unchanged |
| Videos.ClearWebrtcPc | src/store/videos.js:44-48 | the mount is absent afterwards; other mounts and other fields are unchanged |
| Videos.InitializeMediaMtx | src/store/videos.js:52-55 | a falsy URL changes nothing; a truthy one becomes the base and the store is initialised |
| Videos.StripTrailingSlashes | src/store/videos.js:79 | the result is a prefix of the base that does not end in a slash, and only slashes were removed |
| Videos.StripTrailingSlashesIdempotent | src/store/videos.js:79 | stripping twice is stripping once |
| Videos.EndpointShape | src/store/videos.js:79-80 | the endpoint is the stripped base, exactly one slash, the encoded mount and `/whep`, whatever slashes ended the base |
| Videos.GatherLocalCandidates | src/store/videos.js:56-73 | without a requested wait the timer is 5000 ms; resolves at once without a connection or when gathering is already complete; otherwise resolves at the first `complete` notification before the timer, or at the timeout when there is none; never later than the timeout and never rejects |
| Videos.WaitForGathering | src/store/videos.js:58-72 | with the timer fixed: the first `complete` notification before the timer wins, an event at or after the timer loses to it, and without a winner the wait resolves at the timeout |
| Videos.PlayWithWhep | src/store/videos.js:74-140 | without a base it returns false and changes nothing; the posted request is the SDP offer to the endpoint; on success the mount maps to the new connection and `streamStarted` is true |
| Videos.PlaySucceedsIff | src/store/videos.js:104-132 | a start succeeds exactly when a base is set, no step throws, the status is 2xx and the answer is non-empty |
| Videos.PlaySuccess | src/store/videos.js:129-132 | on success only the mount's entry (overwritten) and `streamStarted` change; other mounts, the playing flag, the metadata and the page stay |
| Videos.PlayFailure | src/store/videos.js:115-139 | a non-2xx status, an empty answer or a throwing step closes the new connection and leaves the store exactly as it was, including an earlier entry for the mount |
| Videos.PlayPostsOffer | src/store/videos.js:104-113 | the offer is posted exactly when a base is set and creating the offer and setting the local description did not throw |
| Videos.RestartLeaksPreviousConnection | src/store/videos.js:129-132 | a second successful start for a mount drops the earlier connection from the registry without closing it |
| Videos.LookUp | src/store/videos.js:85-87 | an element with the id is always the one found; otherwise the lookup throws exactly when the fallback selector is invalid, finds the video element a valid selector matches (which may carry another id), and finds nothing exactly when the selector matches no element on the page |
| Videos.OnTrack | src/store/videos.js:84-93 | the media of the element the lookup finds becomes the event's stream, and `streamIsPlaying` becomes true unless that element is not a media element (its missing `play` throws first), so always when the fallback selector found it on a well-formed page; without an element, or when the lookup throws, nothing changes |
| Videos.StopPlaying | src/store/videos.js:142-158 | the mount is unregistered and its connection closed, other mounts are untouched, the media of the element the lookup finds is cleared; both flags become false unless the lookup throws, in which case it rejects with the flags as they were; the metadata, the base, `canToggleStream` and the page's elements and selectors never change |
| Videos.StopAbsentMount | src/store/videos.js:142-158 | stopping a mount without a session closes nothing and leaves the registry alone, yet still clears both flags |
| Videos.StopPlayingIdempotent | src/store/videos.js:142-158 | a second stop of the same mount and element changes nothing more and settles the same way |
| Videos.StartThenStop | src/store/videos.js:129-158 | stopping after a successful start closes exactly the started connection, unregisters the mount and clears both flags |
| Videos.OnIceConnectionStateChange | src/store/videos.js:95-99 | `failed` and `disconnected` stop the mount; every other state changes nothing |
| Videos.IceFailureStops | src/store/videos.js:95-99 | after `failed` or `disconnected` the mount is unregistered and, unless the lookup throws, both flags are false |
| Videos.RepeatedIceFailure | src/store/videos.js:95-99 | `failed` then `disconnected` ends exactly where a single stop ends |
| Videos.StaleFailureStopsCurrentSession | src/store/videos.js:95-99 | a failure reported by a replaced connection tears down the connection currently registered under the mount |
| Videos.AttachStream | src/store/videos.js:160-165 | the metadata is stored under the id, other ids keep their metadata, the base and `canToggleStream` are kept, and the registry, both playback flags and the page end up exactly as a start without metadata leaves them |
| Videos.RequestToWatchStream | src/store/videos.js:167-170 | a watch request is a start of the mount into the element: on success the mount holds the new connection and the started flag is set, on failure the store is unchanged; only the mount's own entry, the started flag and the closed set (by at most the new connection) can change |
| Videos.PlayKeepsRegistryValid | src/store/videos.js:74-140 | a start with a fresh connection keeps every registered connection open and registered under one mount only |
| Videos.StopKeepsRegistryValid | src/store/videos.js:142-158 | a stop keeps every registered connection open and registered under one mount only |
| Videos.RegistryValidPreserved | src/store/videos.js:129-158 | starting with a fresh connection, stopping, ICE events and track events keep every registered connection open and no connection registered twice |
| Mqtt.Initial | src/store/mqtt.js:17-23 | no client, not connected, no error, empty history and topic list |
| Mqtt.GetMessagesByTopic | src/store/mqtt.js:31 | exactly the stored messages on the topic, with their multiplicities, in history order |
| Mqtt.PushNewest | src/store/mqtt.js:44-47 | the payload comes first, the cap of 100 is kept, and the oldest message is dropped only when the cap is exceeded |
| Mqtt.AddMessage | src/store/mqtt.js:44-47 | only the history changes |
| Mqtt.HistoryIsNewestFirst | src/store/mqtt.js:44-47 | after any run of arrivals the history is the arrivals newest first followed by the earlier history, cut at 100 |
| Mqtt.HistoryFromEmpty | src/store/mqtt.js:44-47 | from an empty history the store holds the last 100 arrivals, newest first |
| Mqtt.AddSubscribedTopic | src/store/mqtt.js:51-53 | the topic is listed afterwards, an already-listed topic leaves the list unchanged, the old list is a prefix, and no duplicates are introduced |
| Mqtt.RemoveSubscribedTopic | src/store/mqtt.js:54-56 | the topic is gone, every other topic keeps its count and the relative order is kept |
| Mqtt.AddThenRemoveTopic | src/store/mqtt.js:51-56 | adding a new topic and removing it restores the list |
| Mqtt.Connect | src/store/mqtt.js:70-121 | a connected client makes `connect` a no-op; otherwise the new client is kept, or a thrown error recorded; history and topics stay |
| Mqtt.ConnectionLifecycle | src/store/mqtt.js:87-116 | a new client is usable only after its `connect` event, which clears the error and re-subscribes exactly the listed topics; `close` keeps client, history and topics; a later `connect` action replaces the client |
| Mqtt.ReplacedClientDeliversTwice | src/store/mqtt.js:70-107 | a `connect` while a client exists but is down installs the new client with the history kept, and a message delivered by both clients enters the history twice |
| Mqtt.Disconnect | src/store/mqtt.js:123-128 | without a client nothing changes; with one, that client is ended and every field returns to its initial value |
| Mqtt.Subscribe | src/store/mqtt.js:130-167 | a missing topic or connection rejects with no change, a listed topic resolves with no change; otherwise a SUBSCRIBE goes out and a callback error is recorded and rejects, a refusal (first QoS 0x80) never lists the topic, and any other grant appends the topic and resolves with the grants; a rejection never changes the list, and duplicates never appear |
| Mqtt.SubscribeResolvesIffListed | src/store/mqtt.js:144-166 | once connected with a topic, `subscribe` fulfils exactly when the topic ends up listed, and asks the broker exactly when it was not listed |
| Mqtt.SubscribeRefused | src/store/mqtt.js:155-162 | a first granted QoS of 0x80 rejects, records the refusal and leaves the list alone |
| Mqtt.Unsubscribe | src/store/mqtt.js:170-187 | rejects when not connected or on a callback error without changing anything; a connected call without a callback error resolves and removes only the topic |
| Mqtt.Publish | src/store/mqtt.js:189-205 | only the recorded error can change; it fulfils exactly when connected and the callback reports no error, and a callback error is both recorded and rejected with |
| Mqtt.WaitForMessage | src/store/mqtt.js:207-233 | fulfils exactly when some message matches the topic and passes the filter, with the payload of the first such message; otherwise rejects on timeout |
| Mqtt.ApplyKeepsValid | src/store/mqtt.js:44-59 | every action and client event keeps the history within 100 and the topic list duplicate-free |
| Mqtt.RunKeepsValid | src/store/mqtt.js:44-56 | every sequence of actions and events keeps the history within 100 and the topic list duplicate-free |
| StreamTopic.RewriteScheme | src/store/mqtt.js:243-245 | a case-insensitive `rtmp://` or `rtsp://` prefix becomes `http://`; anything else is unchanged |
| StreamTopic.FallbackCapture | src/store/mqtt.js:265 | no capture exactly when the expression matches nowhere; otherwise the capture of the leftmost match |
| StreamTopic.Pieces | src/store/mqtt.js:249-251 | the pieces are exactly the non-blank pieces of the split on `/`, in order and with their multiplicity; each is slash-free |
| StreamTopic.PathSegments | src/store/mqtt.js:249-252 | one segment per piece, in order, each the piece with every white-space run turned into one underscore (the reference scan); every segment is non-empty, slash-free and free of white space |
| StreamTopic.DropFileName | src/store/mqtt.js:256-257 | the kept segments are a prefix of the segments, one shorter exactly when the last segment contains a dot |
| StreamTopic.TopicOf | src/store/mqtt.js:254-262 | no topic exactly when no segment is kept; otherwise `devices/<kept segments joined by />/<suffix>` |
| StreamTopic.GetTopicByStreamURL | src/store/mqtt.js:239-240 | an empty URL gives no topic |
| StreamTopic.TopicOfShape | src/store/mqtt.js:254-262 | the topic of well-formed segments joins one or more of them, the kept ones, and splitting the joined path gives them back |
| StreamTopic.TopicShape | src/store/mqtt.js:239-286 | no topic exactly for an empty URL, no path, or no kept segment; otherwise `devices/<p>/<suffix>` where `<p>` joins one or more well-formed segments and splits back into them |
| StreamTopic.CleanPathPieces | src/store/mqtt.js:249-251 | the pieces of `/s1/.../sn` with well-formed segments are exactly those segments |
| StreamTopic.CleanPathSegments | src/store/mqtt.js:249-252 | a path of well-formed segments gives back exactly those segments |
| StreamTopic.TopicOfDotless | src/store/mqtt.js:256-262 | when the last segment has no dot, the topic joins all segments |
| StreamTopic.CleanPathTopic | src/store/mqtt.js:247-262 | the path `/s1/.../sn` of well-formed segments, the last without a dot, yields `devices/s1/.../sn/<suffix>` |
| Joystick.SetFlag | src/store/joystick.js:54-69 | the named flag takes the payload and every other flag and field keeps its value |
| Joystick.KeyBindingAgrees | src/store/joystick.js:88-117 | the key switch agrees with the per-button key lists: a key drives a button exactly when listed for it |
| Joystick.KeyDownHandler | src/store/joystick.js:84-118 | a held key changes nothing; otherwise the key joins the held set, mapped or not, its button's flag goes true, and nothing else changes |
| Joystick.KeyUpHandler | src/store/joystick.js:120-153 | the key leaves the held set, its button's flag goes false, other flags and fields stay |
| Joystick.CommitKey | src/store/joystick.js:88-117 | a key's handler commits its button's flag with the given value, and a key without a button commits nothing |
| Joystick.IterateIdempotent | src/store/joystick.js:155-156 | running an idempotent listener several times is running it once |
| Joystick.KeyDownEvent | src/store/joystick.js:84-86 | with no listener a keydown does nothing; with one or several it is one run of the handler |
| Joystick.KeyUpEvent | src/store/joystick.js:120-121 | with no listener a keyup does nothing; with one or several it is one run of the handler |
| Joystick.KeyRepeatIgnored | src/store/joystick.js:85 | a keydown for a held key changes nothing at all |
| Joystick.KeyPressRelease | src/store/joystick.js:84-153 | pressing then releasing a key that was not held restores the held set, leaves its button released and the other flags as they were |
| Joystick.InitJoystick | src/store/joystick.js:72-157 | each call registers one more pair of keyboard listeners and one more pair of gamepad listeners, remembering only the newest handlers |
| Joystick.Unregister | src/store/joystick.js:165-173 | removing a listener removes every registration of it and keeps the others |
| Joystick.StopJoystick | src/store/joystick.js:159-177 | the interval stops, the remembered handlers are unregistered and forgotten, no key is held and listening ends; flags and gamepad listeners stay |
| Joystick.StopJoystickIdempotent | src/store/joystick.js:159-177 | stopping twice is stopping once |
| Joystick.ListenToInputs | src/store/joystick.js:179-183 | when already listening nothing changes; otherwise listening starts with the new interval, and nothing but the listening flag and the interval changes |
| Joystick.ListenToInputsOnce | src/store/joystick.js:179-181 | a second `listenToInputs` never starts a second interval |
| Joystick.GamepadConnected | src/store/joystick.js:73-76 | with a gamepad listener the controller is marked connected and listening starts, once however many listeners run |
| Joystick.GamepadDisconnected | src/store/joystick.js:78-81 | with a gamepad listener the controller is marked disconnected and the joystick stops, keyboard handlers included |
| Joystick.DisconnectStopsKeyboard | src/store/joystick.js:78-81 | after a gamepad disconnect, keys no longer change anything |
| Joystick.DoubleInitLeaksListeners | src/store/joystick.js:72-177 | after two `initJoystick` calls and a stop, the first keyboard listeners are still registered and keys still set flags |
| Joystick.PadTableBijective | src/store/joystick.js:190-214 | each flag reads its own button index, each of indices 0 to 15 drives exactly one flag, and higher indices drive none |
| Joystick.ButtonPressed | src/store/joystick.js:200-214 | a button the pad does not report reads as not pressed |
| Joystick.CommitPad | src/store/joystick.js:195-214 | committing a list of flags from a pad sets each listed flag to the pad's reading and keeps every other one |
| Joystick.PollOrderComplete | src/store/joystick.js:195-214 | the tick's sixteen commits cover every button |
| Joystick.CommitTick | src/store/joystick.js:195-214 | after a tick's commits a flag is on exactly when the pad reports it, whatever it was before |
| Joystick.ReadingByIndex | src/store/joystick.js:190-214 | a pad's reading, index by index: buttons 0 to 11 set their own flag, missing buttons read as released, each d-pad flag is its button or the stick past half way |
| Joystick.Poll | src/store/joystick.js:183-215 | without a running interval, gamepad list or first pad nothing changes; otherwise every flag becomes what the pad reports and nothing else changes |
| Joystick.PollReadsButtons | src/store/joystick.js:190-214 | buttons 0 to 11 set their own flag, missing buttons read as released, each d-pad flag is its button or the stick past half way |
| Joystick.ApplyKeepsValid | src/store/joystick.js:159-183 | every event keeps "listening exactly while an interval runs" and keeps remembered handlers registered |
| Auth.LoadFromStorage | src/store/auth.js:8-21 | no record or an unreadable one gives the signed-out state; a record gives its user, and the state is authenticated exactly when its token is non-empty; the result is always consistent |
| Auth.SaveToStorage | src/store/auth.js:23-28 | the record holds the state's user and token |
| Auth.SaveLoadRoundTrip | src/store/auth.js:8-28 | saving then loading gives the state back exactly when it is consistent and holds no empty token |
| Auth.Startup | src/store/auth.js:30-38 | the startup state is what a reload of the same storage gives |
| Auth.SetAuth | src/store/auth.js:45-50 | user and token are taken, the state is authenticated and saved, and no other storage key changes |
| Auth.ClearAuth | src/store/auth.js:51-56 | the state is signed out, the record is removed, and no other storage key changes |
| Auth.Login | src/store/auth.js:59-71 | fulfils exactly for `ipv` / `5geventos`, signing in as that user with the minted token and saving it; otherwise rejects with "Invalid credentials" and changes nothing |
| Auth.Logout | src/store/auth.js:72-74 | signed out and the record removed; every other storage key keeps its value |
| Auth.ConsistentPreserved | src/store/auth.js:30-56 | "authenticated exactly when a token is held" holds at startup, after clearing, and after setting exactly when a token is set |
| Auth.ReloadsPreserved | src/store/auth.js:45-74 | clearing, logging out and logging in with a non-empty token keep storage and state in step; setting keeps them in step exactly for a non-empty token |
| Auth.LoginSurvivesReload | src/store/auth.js:59-70 | after a successful login, the next startup is signed in as the same user with the same token |
| Auth.LogoutSurvivesReload | src/store/auth.js:72-74 | after a logout, the next startup is signed out |

## Left out

- `src/main.js`, `src/store/index.js` and `vite.config.js` are framework wiring, plugin setup and TLS file reads, with no behaviour to state. `src/store/settings.js` is plain setters over local storage. None of them is part of this model.
- Real WebRTC, `fetch`, the DOM, `videoEl.play()` and `MediaStream` are not modelled. Each awaited step's outcome is a parameter, and a track event is reduced to its stream ids and track. The page is reduced to what the element lookup can see: elements by id, which of them are not media elements, which element a valid fallback selector matches, and which selectors are invalid.
- Videos.LookUp: does not model a page on which two elements share an id, because elements are keyed by id; `getElementById` would return the first of them in document order.
- Sender tracks: stopping them in `stopPlaying` is best-effort and has no effect the store can see, so it is not modelled.
- Videos.PlayWithWhep: does not run the gathering wait itself. The wait never rejects, so it cannot change the outcome of a start. It is modelled separately as `Videos.GatherLocalCandidates`.
- `encodeURIComponent` and `new URL(...).pathname` are library code, taken as function parameters.
- Timers are left out: the gathering timeout is an instant on an event timeline, and `waitForMessage` sees the messages delivered before its timer fires.
- Logging is left out: `console.error` and `console.log` have no effect on state.
- The `connect` options merge (`clean`, `connectTimeout`, `reconnectPeriod`) only configures the library, so it is not modelled. The default broker URL read from local storage is not modelled either.
- The payload shapes `subscribe` accepts are reduced: a payload object is reduced to its topic, and subscribe options are not modelled.
- Every action settles in one step: the library's callback result is a parameter of the action (`ack`, `reply`, `Exchange`). The model therefore cannot express another action running between a request and its callback, such as a `disconnect` or `unsubscribe` between a SUBSCRIBE and its SUBACK, or a `stopPlaying` between the awaits of a WHEP start.
- Auth.SetAuth: does not model `localStorage.setItem` throwing (a full or unavailable storage). In the code the state fields are then already set but nothing is saved, and `login` rejects with the storage error; the model always saves.
- Mqtt.Subscribe: does not model a `granted` value that is not an array, because the library always passes an array of grants.
- `SET_STREAM_STARTED` is a single assignment that nothing in the module commits; it assigns `streamStarted` exactly as `Videos.SetProp` with the `StreamStarted` key does. `SET_MEDIAMTX_BASE` is committed only by `initializeMediaMtx` and is modelled inside `Videos.InitializeMediaMtx`.
- Videos.SetProp: `SET_PROP` assigns whatever state key it is given, but only the three boolean flags `streamStarted`, `streamIsPlaying` and `canToggleStream` are modelled as keys. The `streamSubscriberInfo` field is not modelled either, because nothing in these modules reads it and only `SET_PROP` could write it.
- `CLEAR_MESSAGES` (with the `clearMessages` action) and `CLEAR_SUBSCRIBED_TOPICS` each empty one field. They appear only as the actions `DoClearMessages` and `DoClearTopics` of the MQTT invariant.
- Joystick axes are real numbers compared against ±0.5. NaN and other floating-point details are not modelled.
- The polling interval's 50 ms period is not modelled; each tick is an event.
- `btoa` and `Date.now()` are not modelled: the token `login` mints is a parameter. It is non-empty in the source because it encodes a non-empty string, and `Auth.ReloadsPreserved` and `Auth.LoginSurvivesReload` assume that.
- Auth.LoadFromStorage: JSON parsing is not modelled. A stored value is a record of user and token, or unreadable. A stored user that is a non-object truthy JSON value is not modelled.
- `new Date().toISOString()` is not modelled: message timestamps are opaque strings.

=== FILE: auth.dfy ===
/** The authentication store: one static account, a token kept in local storage, and the
    three state fields `user`, `token` and `isAuthenticated`. */
module Auth {
  import opened Outcomes

  /** The local-storage key the session is kept under. */
  const StorageKey := "auth"

  /** The only account the static check accepts. */
  const StaticUsername := "ipv"
  const StaticPassword := "5geventos"

  /** The message a failed login rejects with. */
  const InvalidCredentials := "Invalid credentials"

  datatype User = User(username: string)

  /** The store state. */
  datatype AuthState = AuthState(user: Option<User>, token: Option<string>, isAuthenticated: bool)

  /** A stored value as `JSON.parse` sees it: a record with `user` and `token` fields
      (absent, `null` or falsy fields read as `None`), or anything that does not give such a
      record (unparseable text, the empty string, `null`), all of which load the same way. */
  datatype Stored = Record(user: Option<User>, token: Option<string>) | Unreadable

  /** The store state next to the browser's local storage. */
  datatype AuthWorld = AuthWorld(state: AuthState, storage: map<string, Stored>)

  const SignedOut := AuthState(None, None, false)

  /** The state keeps its flag in step with its token: authenticated exactly when a token
      is held. */
  predicate Consistent(s: AuthState)
  {
    s.isAuthenticated <==> s.token.Some?
  }

  /** `loadFromStorage`: nothing stored or nothing readable gives the signed-out state; a
      record gives its user and its token, an empty token reading as none, and the state
      is authenticated exactly when the token is non-empty. */
  function LoadFromStorage(storage: map<string, Stored>): (r: AuthState)
    ensures Consistent(r)
    ensures StorageKey !in storage || storage[StorageKey].Unreadable? ==> r == SignedOut
    ensures StorageKey in storage && storage[StorageKey].Record? ==>
      var rec := storage[StorageKey];
      && r.user == rec.user
      && (r.isAuthenticated <==> rec.token.Some? && rec.token.value != "")
      && (r.isAuthenticated ==> r.token == rec.token)
  {
    if StorageKey !in storage then SignedOut
    else
      match storage[StorageKey]
      case Unreadable => SignedOut
      case Record(user, token) =>
        var t := if token == Some("") then None else token;
        AuthState(user, t, t.Some?)
  }

  /** `saveToStorage`: the record holding the state's user and token. */
  function SaveToStorage(s: AuthState): (r: Stored)
    ensures r.Record? && r.user == s.user && r.token == s.token
  {
    Record(s.user, s.token)
  }

  /** Saving then loading gives a state back exactly when it is consistent and its token,
      if any, is non-empty. */
  lemma SaveLoadRoundTrip(s: AuthState)
    ensures LoadFromStorage(map[StorageKey := SaveToStorage(s)]) == s
        <==> Consistent(s) && s.token != Some("")
  {
  }

  /** The store at page load: the state read from storage. */
  function Startup(storage: map<string, Stored>): (r: AuthWorld)
    ensures Reloads(r) && r.storage == storage
  {
    AuthWorld(LoadFromStorage(storage), storage)
  }

  /** Reloading the page would restore the current state. */
  predicate Reloads(w: AuthWorld)
  {
    LoadFromStorage(w.storage) == w.state
  }

  /** `SET_AUTH`: the user and token are taken, the state is authenticated and saved;
      no other storage key changes. */
  function SetAuth(w: AuthWorld, user: Option<User>, token: Option<string>): (r: AuthWorld)
    ensures r.state.isAuthenticated && r.state.user == user && r.state.token == token
    ensures StorageKey in r.storage && r.storage[StorageKey] == Record(user, token)
    ensures forall k :: k != StorageKey ==> (k in r.storage <==> k in w.storage)
    ensures forall k :: k != StorageKey && k in w.storage ==> r.storage[k] == w.storage[k]
  {
    var state := AuthState(user, token, true);
    AuthWorld(state, w.storage[StorageKey := SaveToStorage(state)])
  }

  /** `CLEAR_AUTH`: signed out and the stored record removed; no other storage key changes. */
  function ClearAuth(w: AuthWorld): (r: AuthWorld)
    ensures r.state == SignedOut
    ensures StorageKey !in r.storage
    ensures forall k :: k != StorageKey ==> (k in r.storage <==> k in w.storage)
    ensures forall k :: k != StorageKey && k in w.storage ==> r.storage[k] == w.storage[k]
  {
    AuthWorld(SignedOut, w.storage - {StorageKey})
  }

  /** What `login` resolves with. */
  datatype Session = Session(user: User, token: string)

  datatype LoginResult = LoginResult(world: AuthWorld, outcome: Settled<Session, string>)

  /** `login`. `token` stands for the token the action mints from the user name and the
      clock. The static account signs in and is saved; anything else rejects and changes
      nothing. */
  function Login(w: AuthWorld, username: string, password: string, token: string): (r: LoginResult)
    ensures r.outcome.Resolved? <==> username == StaticUsername && password == StaticPassword
    ensures r.outcome.Resolved? ==>
      && r.outcome.value == Session(User(username), token)
      && r.world.state == AuthState(Some(User(username)), Some(token), true)
      && r.world.storage == w.storage[StorageKey := Record(Some(User(username)), Some(token))]
    ensures r.outcome.Rejected? ==> r.outcome.error == InvalidCredentials && r.world == w
  {
    if username == StaticUsername && password == StaticPassword then
      var user := User(username);
      LoginResult(SetAuth(w, Some(user), Some(token)), Resolved(Session(user, token)))
    else
      LoginResult(w, Rejected(InvalidCredentials))
  }

  /** `logout`: signed out, and only the stored session is removed from local storage. */
  function Logout(w: AuthWorld): (r: AuthWorld)
    ensures r.state == SignedOut && StorageKey !in r.storage
    ensures forall k :: k != StorageKey ==> (k in r.storage <==> k in w.storage)
    ensures forall k :: k != StorageKey && k in w.storage ==> r.storage[k] == w.storage[k]
  {
    ClearAuth(w)
  }

  /** The flag-token invariant holds at startup and is kept by clearing and by setting a
      non-empty token; setting no token breaks it. */
  lemma ConsistentPreserved(w: AuthWorld, user: Option<User>, token: Option<string>)
    ensures Consistent(Startup(w.storage).state)
    ensures Consistent(ClearAuth(w).state)
    ensures Consistent(SetAuth(w, user, token).state) <==> token.Some?
  {
  }

  /** Every operation keeps the stored record in step with the state, as long as the tokens
      set are non-empty, so a page reload restores the session. An empty token would be
      lost on reload. */
  lemma ReloadsPreserved(w: AuthWorld, user: Option<User>, token: Option<string>, username: string, password: string, minted: string)
    requires Reloads(w)
    ensures Reloads(ClearAuth(w)) && Reloads(Logout(w))
    ensures Reloads(SetAuth(w, user, token)) <==> token.Some? && token.value != ""
    ensures minted != "" ==> Reloads(Login(w, username, password, minted).world)
  {
    SaveLoadRoundTrip(AuthState(user, token, true));
  }

  /** After a successful login, the next page load comes back signed in as the same user
      with the same token. */
  lemma LoginSurvivesReload(w: AuthWorld, token: string)
    requires token != ""
    ensures var r := Login(w, StaticUsername, StaticPassword, token);
      Startup(r.world.storage).state == AuthState(Some(User(StaticUsername)), Some(token), true)
  {
  }

  /** After a logout, the next page load comes back signed out. */
  lemma LogoutSurvivesReload(w: AuthWorld)
    ensures Startup(Logout(w).storage).state == SignedOut
  {
  }
}

=== FILE: common.dfy ===
/** Failure-compatible wrappers shared by every store module. */
module Outcomes {

  /** A value that may be absent: JavaScript's `null` / `undefined`. */
  datatype Option<+T> = None | Some(value: T)

  /** How a JavaScript promise settles. */
  datatype Settled<+T, +E> = Resolved(value: T) | Rejected(error: E)
}

/** Sequence helpers: `Array.prototype.filter`, distinctness and order. */
module Seqs {

  /** `a` can be obtained from `b` by deleting elements, keeping the order. */
  ghost predicate SubsequenceOf<T>(a: seq<T>, b: seq<T>)
    decreases |b|
  {
    || |a| == 0
    || (&& |b| > 0
        && ((a[0] == b[0] && SubsequenceOf(a[1..], b[1..])) || SubsequenceOf(a, b[1..])))
  }

  /** No element occurs twice. */
  predicate NoDup<T(==)>(s: seq<T>)
  {
    forall i, j :: 0 <= i < j < |s| ==> s[i] != s[j]
  }

  /** `s.filter(keep)`: the elements `keep` accepts, in their original order and multiplicity. */
  function Filter<T(!new)>(s: seq<T>, keep: T -> bool): (r: seq<T>)
    ensures |r| <= |s|
    ensures forall x {:trigger x in r} :: x in r <==> x in s && keep(x)
    ensures forall x {:trigger multiset(r)[x]} :: multiset(r)[x] == if keep(x) then multiset(s)[x] else 0
    ensures SubsequenceOf(r, s)
  {
    if |s| == 0 then []
    else
      var rest := Filter(s[1..], keep);
      assert s == [s[0]] + s[1..];
      if keep(s[0]) then [s[0]] + rest else rest
  }

  /** Filtering distributes over concatenation. */
  lemma {:induction false} FilterConcat<T(!new)>(a: seq<T>, b: seq<T>, keep: T -> bool)
    ensures Filter(a + b, keep) == Filter(a, keep) + Filter(b, keep)
  {
    if |a| == 0 {
      assert a + b == b;
    } else {
      var ab := a + b;
      assert ab[1..] == a[1..] + b;
      FilterConcat(a[1..], b, keep);
      var tail := Filter(a[1..] + b, keep);
      assert Filter(ab, keep) == if keep(a[0]) then [a[0]] + tail else tail;
      assert Filter(a, keep) == if keep(a[0]) then [a[0]] + Filter(a[1..], keep) else Filter(a[1..], keep);
    }
  }

  /** A filter that keeps every element returns the sequence itself. */
  lemma {:induction false} FilterKeepsAll<T(!new)>(s: seq<T>, keep: T -> bool)
    requires forall i :: 0 <= i < |s| ==> keep(s[i])
    ensures Filter(s, keep) == s
  {
    if |s| != 0 {
      FilterKeepsAll(s[1..], keep);
      assert s == [s[0]] + s[1..];
    }
  }

  /** Deleting elements never introduces a duplicate. */
  lemma {:induction false} SubsequenceKeepsNoDup<T>(a: seq<T>, b: seq<T>)
    requires SubsequenceOf(a, b)
    requires NoDup(b)
    ensures NoDup(a)
    decreases |b|
  {
    if |a| != 0 {
      if a[0] == b[0] && SubsequenceOf(a[1..], b[1..]) {
        SubsequenceKeepsNoDup(a[1..], b[1..]);
        SubsequenceMembers(a[1..], b[1..]);
        forall i, j | 0 <= i < j < |a| ensures a[i] != a[j] {
          if i == 0 {
            assert a[j] == a[1..][j - 1];
            assert a[j] in b[1..];
            var k :| 0 <= k < |b[1..]| && b[1..][k] == a[j];
            assert b[k + 1] == a[j];
          } else {
            assert a[i] == a[1..][i - 1] && a[j] == a[1..][j - 1];
          }
        }
      } else {
        SubsequenceKeepsNoDup(a, b[1..]);
      }
    }
  }

  /** Every element of a subsequence is an element of the whole. */
  lemma {:induction false} SubsequenceMembers<T>(a: seq<T>, b: seq<T>)
    requires SubsequenceOf(a, b)
    ensures forall x :: x in a ==> x in b
    decreases |b|
  {
    if |a| != 0 {
      if a[0] == b[0] && SubsequenceOf(a[1..], b[1..]) {
        SubsequenceMembers(a[1..], b[1..]);
        assert a == [a[0]] + a[1..];
        assert b == [b[0]] + b[1..];
      } else {
        SubsequenceMembers(a, b[1..]);
        assert b == [b[0]] + b[1..];
      }
    }
  }
}

/** String helpers with JavaScript's semantics. */
module Text {
  import Seqs

  /** A character JavaScript's `\s` and `String.prototype.trim` treat as white space
      (the WhiteSpace and LineTerminator productions of ECMAScript). */
  predicate IsJsSpace(c: char)
  {
    || c == '\t' || c == '\n' || c == '\U{B}' || c == '\U{C}' || c == '\r' || c == ' '
    || c == '\U{A0}' || c == '\U{1680}' || ('\U{2000}' <= c <= '\U{200A}')
    || c == '\U{2028}' || c == '\U{2029}' || c == '\U{202F}' || c == '\U{205F}'
    || c == '\U{3000}' || c == '\U{FEFF}'
  }

  /** A character the regular-expression `.` does not match (a LineTerminator). */
  predicate IsLineTerminator(c: char)
  {
    c == '\n' || c == '\r' || c == '\U{2028}' || c == '\U{2029}'
  }

  /** Empty, or white space only: what trimming leaves empty. */
  predicate IsBlank(s: string)
  {
    forall i :: 0 <= i < |s| ==> IsJsSpace(s[i])
  }

  /** `s.split(sep)` for a one-character separator: the pieces between separators,
      empty pieces included, and always at least one piece. */
  function Split(s: string, sep: char): (r: seq<string>)
    ensures |r| >= 1
    ensures forall i :: 0 <= i < |r| ==> sep !in r[i]
  {
    if |s| == 0 then [""]
    else
      var rest := Split(s[1..], sep);
      if s[0] == sep then [""] + rest else [[s[0]] + rest[0]] + rest[1..]
  }

  /** `pieces.join(sep)`. */
  function Join(pieces: seq<string>, sep: char): string
  {
    if |pieces| == 0 then ""
    else if |pieces| == 1 then pieces[0]
    else pieces[0] + [sep] + Join(pieces[1..], sep)
  }

  /** Joining the pieces of a split gives the string back. */
  lemma {:induction false} JoinSplit(s: string, sep: char)
    ensures Join(Split(s, sep), sep) == s
  {
    if |s| != 0 {
      JoinSplit(s[1..], sep);
      var rest := Split(s[1..], sep);
      if s[0] == sep {
        assert ([""] + rest)[1..] == rest;
        assert s == [s[0]] + s[1..];
      } else {
        var r := [[s[0]] + rest[0]] + rest[1..];
        if |rest| == 1 {
          assert s == [s[0]] + s[1..];
        } else {
          assert r[1..] == rest[1..];
          assert Join(rest, sep) == rest[0] + [sep] + Join(rest[1..], sep);
          assert s == [s[0]] + s[1..];
        }
      }
    }
  }

  /** A string without the separator splits into itself alone. */
  lemma {:induction false} SplitPlain(a: string, sep: char)
    requires sep !in a
    ensures Split(a, sep) == [a]
  {
    if |a| != 0 {
      SplitPlain(a[1..], sep);
      assert a == [a[0]] + a[1..];
    }
  }

  /** A separator-free head followed by a separator splits off as the first piece. */
  lemma {:induction false} SplitHead(a: string, sep: char, b: string)
    requires sep !in a
    ensures Split(a + [sep] + b, sep) == [a] + Split(b, sep)
    decreases |a|
  {
    var s := a + [sep] + b;
    if |a| == 0 {
      assert s == [sep] + b;
      assert s[1..] == b;
    } else {
      assert s[1..] == a[1..] + [sep] + b;
      SplitHead(a[1..], sep, b);
      assert [a[0]] + a[1..] == a;
    }
  }

  /** Splitting a join of separator-free pieces recovers the pieces. */
  lemma {:induction false} SplitJoin(pieces: seq<string>, sep: char)
    requires |pieces| >= 1
    requires forall i :: 0 <= i < |pieces| ==> sep !in pieces[i]
    ensures Split(Join(pieces, sep), sep) == pieces
  {
    if |pieces| == 1 {
      SplitPlain(pieces[0], sep);
    } else {
      SplitJoin(pieces[1..], sep);
      SplitHead(pieces[0], sep, Join(pieces[1..], sep));
      assert pieces == [pieces[0]] + pieces[1..];
    }
  }

  /** `s` with its leading white space removed. */
  function DropLeadingSpaces(s: string): (r: string)
    ensures |r| <= |s| && r == s[|s| - |r|..]
    ensures |r| > 0 ==> !IsJsSpace(r[0])
    ensures forall i :: 0 <= i < |s| - |r| ==> IsJsSpace(s[i])
  {
    if |s| > 0 && IsJsSpace(s[0]) then DropLeadingSpaces(s[1..]) else s
  }

  /** A character the white-space replace copies through unchanged and never produces
      itself: neither white space nor the underscore. */
  predicate IsText(c: char)
  {
    c != '_' && !IsJsSpace(c)
  }

  predicate NotUnderscore(c: char)
  {
    c != '_'
  }

  /** The white-space replace read one character at a time, as a regular-expression
      engine scans the string: white space that starts a run (`inRun` says whether the
      character before was white space) becomes one underscore, white space inside a run
      disappears, and every other character is copied. */
  function ScanSpaces(s: string, inRun: bool): (r: string)
    ensures forall i :: 0 <= i < |r| ==> !IsJsSpace(r[i])
    ensures |r| <= |s| && (|r| == 0 <==> |s| == 0 || (inRun && forall i :: 0 <= i < |s| ==> IsJsSpace(s[i])))
    decreases |s|
  {
    if |s| == 0 then ""
    else if IsJsSpace(s[0]) then (if inRun then "" else "_") + ScanSpaces(s[1..], true)
    else [s[0]] + ScanSpaces(s[1..], false)
  }

  /** Inside a run, the rest of the run produces nothing. */
  lemma {:induction false} ScanSkipsRun(s: string)
    ensures ScanSpaces(s, true) == ScanSpaces(DropLeadingSpaces(s), true)
    decreases |s|
  {
    if |s| > 0 && IsJsSpace(s[0]) {
      ScanSkipsRun(s[1..]);
    }
  }

  /** A run of white space at the front scans to one underscore followed by the scan of
      what comes after the run. */
  lemma ScanRunStart(s: string)
    requires |s| > 0 && IsJsSpace(s[0])
    ensures ScanSpaces(s, false) == "_" + ScanSpaces(DropLeadingSpaces(s), false)
  {
    var rest := DropLeadingSpaces(s);
    ScanSkipsRun(s[1..]);
    assert DropLeadingSpaces(s[1..]) == rest;
    if |rest| > 0 {
      assert !IsJsSpace(rest[0]);
    }
  }

  /** The scan keeps every text character, in order and with its multiplicity, and adds
      nothing but underscores. */
  lemma {:induction false} ScanKeepsText(s: string, inRun: bool)
    ensures Seqs.Filter(ScanSpaces(s, inRun), NotUnderscore) == Seqs.Filter(s, IsText)
    decreases |s|
  {
    if |s| > 0 {
      var next := IsJsSpace(s[0]);
      var head := if IsJsSpace(s[0]) then (if inRun then "" else "_") else [s[0]];
      assert ScanSpaces(s, inRun) == head + ScanSpaces(s[1..], next);
      Seqs.FilterConcat(head, ScanSpaces(s[1..], next), NotUnderscore);
      ScanKeepsText(s[1..], next);
      assert Seqs.Filter(head, NotUnderscore) == if IsText(s[0]) then [s[0]] else [];
    }
  }

  /** The white-space replace: every maximal run of white space becomes exactly one
      underscore, everything else is kept in place. */
  function CollapseSpaces(s: string): (r: string)
    ensures forall i :: 0 <= i < |r| ==> !IsJsSpace(r[i])
    ensures |r| <= |s| && (|r| == 0 <==> |s| == 0)
    ensures r == ScanSpaces(s, false)
    decreases |s|
  {
    if |s| == 0 then ""
    else if IsJsSpace(s[0]) then
      var rest := DropLeadingSpaces(s);
      ScanRunStart(s);
      "_" + CollapseSpaces(rest)
    else
      assert s == [s[0]] + s[1..];
      [s[0]] + CollapseSpaces(s[1..])
  }

  /** The collapse keeps every text character, in order and with its multiplicity: the
      only characters it adds are underscores, and only white space is dropped. */
  lemma CollapseSpacesKeepsText(s: string)
    ensures Seqs.Filter(CollapseSpaces(s), NotUnderscore) == Seqs.Filter(s, IsText)
    ensures forall c :: IsText(c) ==> (c in CollapseSpaces(s) <==> c in s)
  {
    ScanKeepsText(s, false);
    var r := CollapseSpaces(s);
    forall c | IsText(c)
      ensures c in r <==> c in s
    {
      assert c in Seqs.Filter(r, NotUnderscore) <==> c in r;
      assert c in Seqs.Filter(s, IsText) <==> c in s;
    }
  }

  /** A string with no white space is left alone by the collapse. */
  lemma {:induction false} CollapseSpacesIdentity(s: string)
    requires forall i :: 0 <= i < |s| ==> !IsJsSpace(s[i])
    ensures CollapseSpaces(s) == s
  {
    if |s| != 0 {
      CollapseSpacesIdentity(s[1..]);
      assert s == [s[0]] + s[1..];
    }
  }
}

=== FILE: joystick.dfy ===
/** The joystick store: keyboard and gamepad input mapped onto sixteen button flags.

    The module-level variables of the store (the interval handle, the two keyboard
    handlers and the set of keys held down) live in `Input` next to the store state, and so
    do the listeners registered on the window, because `initJoystick` adds a new pair of
    keyboard listeners and a new pair of gamepad listeners on every call. */
module Joystick {
  import opened Outcomes

  /** The sixteen button flags of the store state. */
  datatype Button =
    | Up | Down | Left | Right
    | L1 | L2 | L3 | R1 | R2 | R3
    | X | Y | A | B
    | Share | Options

  /** The store state; a flag is true exactly when its button is in `flags`. */
  datatype JoyStore = JoyStore(isControllerConnected: bool, isListening: bool, flags: set<Button>)

  /** Everything false. */
  const InitialStore := JoyStore(false, false, {})

  /** The `setUp` … `setOptions` mutations: one flag takes the payload, the others keep theirs. */
  function SetFlag(s: JoyStore, b: Button, value: bool): (r: JoyStore)
    ensures b in r.flags <==> value
    ensures forall c :: c != b ==> (c in r.flags <==> c in s.flags)
    ensures r.isControllerConnected == s.isControllerConnected && r.isListening == s.isListening
  {
    s.(flags := if value then s.flags + {b} else s.flags - {b})
  }

  /** The store plus the module-level variables and the window's listeners. Handlers are
      told apart by an identity; `nextId` hands out fresh ones. */
  datatype Input = Input(
    store: JoyStore,
    pressedKeys: set<string>,
    keydownHandler: Option<nat>,
    keyupHandler: Option<nat>,
    interval: Option<nat>,
    keydownListeners: seq<nat>,
    keyupListeners: seq<nat>,
    padListeners: nat,
    nextId: nat)

  /** Before `initJoystick`: nothing registered, nothing held. */
  const Initial := Input(InitialStore, {}, None, None, None, [], [], 0, 0)

  /** The module-level variables agree with the store and the window: the store listens
      exactly while an interval runs, and a remembered handler is registered. */
  predicate Valid(s: Input)
  {
    && (s.store.isListening <==> s.interval.Some?)
    && (s.keydownHandler.Some? ==> s.keydownHandler.value in s.keydownListeners)
    && (s.keyupHandler.Some? ==> s.keyupHandler.value in s.keyupListeners)
  }

  // ---------------------------------------------------------------------------
  // Keyboard
  // ---------------------------------------------------------------------------

  /** The button a key drives, if any: the arrows and WASD move, Q and E are the shoulders. */
  function KeyButton(key: string): Option<Button>
  {
    if key == "ArrowUp" || key == "w" || key == "W" then Some(Up)
    else if key == "ArrowDown" || key == "s" || key == "S" then Some(Down)
    else if key == "ArrowLeft" || key == "a" || key == "A" then Some(Left)
    else if key == "ArrowRight" || key == "d" || key == "D" then Some(Right)
    else if key == "q" || key == "Q" then Some(L1)
    else if key == "e" || key == "E" then Some(R1)
    else None
  }

  /** The keys bound to each button, listed per button. */
  function KeysOf(b: Button): set<string>
  {
    match b
    case Up => {"ArrowUp", "w", "W"}
    case Down => {"ArrowDown", "s", "S"}
    case Left => {"ArrowLeft", "a", "A"}
    case Right => {"ArrowRight", "d", "D"}
    case L1 => {"q", "Q"}
    case R1 => {"e", "E"}
    case _ => {}
  }

  /** The key switch and the per-button key lists describe the same binding: a key drives a
      button exactly when it is listed for that button. */
  lemma KeyBindingAgrees(key: string, b: Button)
    ensures KeyButton(key) == Some(b) <==> key in KeysOf(b)
  {
  }

  /** The commit a key's handler makes: its button's flag takes `value`; a key without a
      button commits nothing. */
  function CommitKey(s: JoyStore, key: string, value: bool): (r: JoyStore)
    ensures forall b :: b in r.flags <==> if KeyButton(key) == Some(b) then value else b in s.flags
    ensures r.isControllerConnected == s.isControllerConnected && r.isListening == s.isListening
  {
    match KeyButton(key)
    case Some(b) => SetFlag(s, b, value)
    case None => s
  }

  /** One run of the keydown handler: a key already held is ignored (auto-repeat);
      otherwise it joins the held keys, mapped or not, and its button's flag goes true. */
  function KeyDownHandler(s: Input, key: string): (r: Input)
    ensures key in s.pressedKeys ==> r == s
    ensures r.pressedKeys == s.pressedKeys + {key}
    ensures forall b :: b in r.store.flags <==> b in s.store.flags || (key !in s.pressedKeys && KeyButton(key) == Some(b))
    ensures r == s.(pressedKeys := r.pressedKeys, store := s.store.(flags := r.store.flags))
  {
    if key in s.pressedKeys then s
    else
      s.(pressedKeys := s.pressedKeys + {key}, store := CommitKey(s.store, key, true))
  }

  /** One run of the keyup handler: the key is no longer held and its button's flag goes
      false; a key without a button changes no flag. */
  function KeyUpHandler(s: Input, key: string): (r: Input)
    ensures r.pressedKeys == s.pressedKeys - {key}
    ensures forall b :: b in r.store.flags <==> b in s.store.flags && KeyButton(key) != Some(b)
    ensures r == s.(pressedKeys := r.pressedKeys, store := s.store.(flags := r.store.flags))
  {
    s.(pressedKeys := s.pressedKeys - {key}, store := CommitKey(s.store, key, false))
  }

  /** `f` applied `n` times: the window running each of `n` identical listeners in turn. */
  function Iterate(f: Input -> Input, n: nat, s: Input): Input
  {
    if n == 0 then s else Iterate(f, n - 1, f(s))
  }

  /** Running an idempotent listener several times is running it once. */
  lemma {:induction false} IterateIdempotent(f: Input -> Input, n: nat, s: Input)
    requires n >= 1
    requires f(f(s)) == f(s)
    ensures Iterate(f, n, s) == f(s)
  {
    if n > 1 {
      IterateIdempotent(f, n - 1, f(s));
    }
  }

  /** A `keydown` event on the window: every registered keydown listener runs. */
  function KeyDown(s: Input, key: string): Input
  {
    Iterate((t: Input) => KeyDownHandler(t, key), |s.keydownListeners|, s)
  }

  /** A `keyup` event on the window: every registered keyup listener runs. */
  function KeyUp(s: Input, key: string): Input
  {
    Iterate((t: Input) => KeyUpHandler(t, key), |s.keyupListeners|, s)
  }

  /** With no keydown listener a keydown changes nothing; with any number of them it is one
      run of the handler, since the copies share the held-key set and the second one finds
      the key already held. */
  lemma KeyDownEvent(s: Input, key: string)
    ensures |s.keydownListeners| == 0 ==> KeyDown(s, key) == s
    ensures |s.keydownListeners| >= 1 ==> KeyDown(s, key) == KeyDownHandler(s, key)
  {
    if |s.keydownListeners| >= 1 {
      IterateIdempotent((t: Input) => KeyDownHandler(t, key), |s.keydownListeners|, s);
    }
  }

  /** The same for keyup: one listener or many, the effect is one run of the handler. */
  lemma KeyUpEvent(s: Input, key: string)
    ensures |s.keyupListeners| == 0 ==> KeyUp(s, key) == s
    ensures |s.keyupListeners| >= 1 ==> KeyUp(s, key) == KeyUpHandler(s, key)
  {
    if |s.keyupListeners| >= 1 {
      var f := (t: Input) => KeyUpHandler(t, key);
      assert f(f(s)) == f(s);
      IterateIdempotent(f, |s.keyupListeners|, s);
    }
  }

  /** A repeated keydown for a key already held changes nothing at all. */
  lemma KeyRepeatIgnored(s: Input, key: string)
    requires key in s.pressedKeys
    ensures KeyDown(s, key) == s
  {
    KeyDownEvent(s, key);
  }

  /** Pressing and releasing a key that was not held gives the held keys back, leaves the
      key's button released and every other flag as it was. */
  lemma KeyPressRelease(s: Input, key: string)
    requires key !in s.pressedKeys
    requires |s.keydownListeners| >= 1 && |s.keyupListeners| >= 1
    ensures var r := KeyUp(KeyDown(s, key), key);
      && r.pressedKeys == s.pressedKeys
      && (forall b :: KeyButton(key) == Some(b) ==> b !in r.store.flags)
      && (forall b :: KeyButton(key) != Some(b) ==> (b in r.store.flags <==> b in s.store.flags))
      && r == s.(store := s.store.(flags := r.store.flags))
  {
    KeyDownEvent(s, key);
    var d := KeyDown(s, key);
    KeyUpEvent(d, key);
  }

  // ---------------------------------------------------------------------------
  // Lifecycle
  // ---------------------------------------------------------------------------

  /** `initJoystick`: registers a gamepad listener pair and a fresh keyboard listener pair,
      remembering only the newest keyboard handlers. */
  function InitJoystick(s: Input): (r: Input)
    ensures r.keydownListeners == s.keydownListeners + [s.nextId]
    ensures r.keyupListeners == s.keyupListeners + [s.nextId + 1]
    ensures r.keydownHandler == Some(s.nextId) && r.keyupHandler == Some(s.nextId + 1)
    ensures r.padListeners == s.padListeners + 1
    ensures r.store == s.store && r.pressedKeys == s.pressedKeys && r.interval == s.interval
  {
    s.(
      padListeners := s.padListeners + 1,
      keydownHandler := Some(s.nextId),
      keyupHandler := Some(s.nextId + 1),
      keydownListeners := s.keydownListeners + [s.nextId],
      keyupListeners := s.keyupListeners + [s.nextId + 1],
      nextId := s.nextId + 2)
  }

  /** `removeEventListener`: every registration of the handler goes. */
  function Unregister(listeners: seq<nat>, h: nat): (r: seq<nat>)
    ensures h !in r
    ensures forall x :: x != h ==> (x in listeners <==> x in r)
    ensures |r| <= |listeners|
  {
    if |listeners| == 0 then []
    else if listeners[0] == h then Unregister(listeners[1..], h)
    else [listeners[0]] + Unregister(listeners[1..], h)
  }

  /** `stopJoystick`: the interval stops, the remembered keyboard handlers are unregistered
      and forgotten, no key is held and the store stops listening. The button flags and the
      gamepad listeners stay. */
  function StopJoystick(s: Input): (r: Input)
    ensures r.interval.None? && r.keydownHandler.None? && r.keyupHandler.None?
    ensures r.pressedKeys == {} && !r.store.isListening
    ensures r.store.flags == s.store.flags && r.store.isControllerConnected == s.store.isControllerConnected
    ensures s.keydownHandler.None? ==> r.keydownListeners == s.keydownListeners
    ensures s.keydownHandler.Some? ==> r.keydownListeners == Unregister(s.keydownListeners, s.keydownHandler.value)
    ensures s.keyupHandler.None? ==> r.keyupListeners == s.keyupListeners
    ensures s.keyupHandler.Some? ==> r.keyupListeners == Unregister(s.keyupListeners, s.keyupHandler.value)
    ensures r.padListeners == s.padListeners && r.nextId == s.nextId
  {
    var downs := match s.keydownHandler
      case Some(h) => Unregister(s.keydownListeners, h)
      case None => s.keydownListeners;
    var ups := match s.keyupHandler
      case Some(h) => Unregister(s.keyupListeners, h)
      case None => s.keyupListeners;
    s.(
      interval := None,
      keydownHandler := None,
      keyupHandler := None,
      keydownListeners := downs,
      keyupListeners := ups,
      pressedKeys := {},
      store := s.store.(isListening := false))
  }

  /** Stopping twice is stopping once. */
  lemma StopJoystickIdempotent(s: Input)
    ensures StopJoystick(StopJoystick(s)) == StopJoystick(s)
  {
  }

  /** `listenToInputs`: nothing when already listening; otherwise the store listens and the
      polling interval (whose handle the timer hands out) starts. */
  function ListenToInputs(s: Input, handle: nat): (r: Input)
    ensures s.store.isListening ==> r == s
    ensures !s.store.isListening ==> r.store.isListening && r.interval == Some(handle)
    ensures r.store.flags == s.store.flags && r.pressedKeys == s.pressedKeys
    ensures r.keydownListeners == s.keydownListeners && r.keyupListeners == s.keyupListeners
    ensures r.(store := s.store, interval := s.interval) == s
    ensures r.store.(isListening := s.store.isListening) == s.store
  {
    if s.store.isListening then s
    else s.(store := s.store.(isListening := true), interval := Some(handle))
  }

  /** A second `listenToInputs` never starts a second interval. */
  lemma ListenToInputsOnce(s: Input, h1: nat, h2: nat)
    ensures ListenToInputs(ListenToInputs(s, h1), h2) == ListenToInputs(s, h1)
  {
  }

  /** One `gamepadconnected` listener: the controller is connected and input polling starts. */
  function PadConnectedHandler(s: Input, handle: nat): Input
  {
    ListenToInputs(s.(store := s.store.(isControllerConnected := true)), handle)
  }

  /** One `gamepaddisconnected` listener: the controller is gone and the joystick stops,
      keyboard included. */
  function PadDisconnectedHandler(s: Input): Input
  {
    StopJoystick(s.(store := s.store.(isControllerConnected := false)))
  }

  /** A `gamepadconnected` event: every registered gamepad listener runs. */
  function GamepadConnected(s: Input, handle: nat): (r: Input)
    ensures s.padListeners >= 1 ==> r == PadConnectedHandler(s, handle)
    ensures s.padListeners >= 1 ==> r.store.isControllerConnected && r.store.isListening
    ensures s.padListeners >= 1 && !s.store.isListening ==> r.interval == Some(handle)
    ensures s.padListeners == 0 ==> r == s
  {
    var f := (t: Input) => PadConnectedHandler(t, handle);
    if s.padListeners >= 1 then IterateIdempotent(f, s.padListeners, s); Iterate(f, s.padListeners, s)
    else s
  }

  /** A `gamepaddisconnected` event: every registered gamepad listener runs, which also
      takes the keyboard handlers away. */
  function GamepadDisconnected(s: Input): (r: Input)
    ensures s.padListeners >= 1 ==> r == PadDisconnectedHandler(s)
    ensures s.padListeners >= 1 ==> !r.store.isControllerConnected && !r.store.isListening && r.interval.None?
    ensures s.padListeners >= 1 ==> r.keydownHandler.None? && r.keyupHandler.None? && r.pressedKeys == {}
    ensures s.padListeners == 0 ==> r == s
  {
    var f := (t: Input) => PadDisconnectedHandler(t);
    if s.padListeners >= 1 then IterateIdempotent(f, s.padListeners, s); Iterate(f, s.padListeners, s)
    else s
  }

  /** The disconnect listener leaves the keyboard dead: a keydown after a disconnect of a
      store initialised once does nothing. */
  lemma DisconnectStopsKeyboard(key: string)
    ensures var s := GamepadDisconnected(InitJoystick(Initial));
      KeyDown(s, key) == s
  {
    var i := InitJoystick(Initial);
    var s := GamepadDisconnected(i);
    assert Unregister([0], 0) == [];
    KeyDownEvent(s, key);
  }

  /** Initialising twice leaks a keyboard listener pair: after a stop the first pair is still
      registered and a mapped key still sets its flag. */
  lemma DoubleInitLeaksListeners(key: string, b: Button)
    requires KeyButton(key) == Some(b)
    ensures var s := StopJoystick(InitJoystick(InitJoystick(Initial)));
      && s.keydownListeners == [0] && s.keyupListeners == [1]
      && b in KeyDown(s, key).store.flags
  {
    var s := StopJoystick(InitJoystick(InitJoystick(Initial)));
    assert Unregister([0, 2], 2) == [0] by {
      assert [0, 2][1..] == [2];
      assert Unregister([2], 2) == [];
    }
    assert Unregister([1, 3], 3) == [1] by {
      assert [1, 3][1..] == [3];
      assert Unregister([3], 3) == [];
    }
    KeyDownEvent(s, key);
  }

  // ---------------------------------------------------------------------------
  // Gamepad polling
  // ---------------------------------------------------------------------------

  /** A connected gamepad: the `pressed` state of each button it reports, and its axes. */
  datatype Pad = Pad(buttons: seq<bool>, axes: seq<real>)

  /** The standard-mapping button index each flag is read from; the d-pad is 12 to 15. */
  function PadIndex(b: Button): nat
  {
    match b
    case A => 0
    case B => 1
    case X => 2
    case Y => 3
    case L1 => 4
    case R1 => 5
    case L2 => 6
    case R2 => 7
    case Share => 8
    case Options => 9
    case L3 => 10
    case R3 => 11
    case Up => 12
    case Down => 13
    case Left => 14
    case Right => 15
  }

  /** The flag a button index drives, as laid out by the poll. */
  function ButtonAt(i: nat): Option<Button>
  {
    if i < 16 then
      Some([A, B, X, Y, L1, R1, L2, R2, Share, Options, L3, R3, Up, Down, Left, Right][i])
    else None
  }

  /** The two tables are inverse: each flag reads its own index, each of the sixteen
      indices drives exactly one flag, and no index above 15 drives any. */
  lemma PadTableBijective(b: Button, i: nat)
    ensures ButtonAt(PadIndex(b)) == Some(b)
    ensures ButtonAt(i) == Some(b) <==> i == PadIndex(b)
    ensures ButtonAt(i).None? <==> i >= 16
  {
  }

  /** Whether the pad's button `i` is pressed; a button the pad does not report reads as
      not pressed. */
  function ButtonPressed(pad: Pad, i: nat): (r: bool)
    ensures r ==> i < |pad.buttons|
  {
    i < |pad.buttons| && pad.buttons[i]
  }

  /** Whether axis `i` is pushed past half way in the negative (resp. positive) direction;
      a missing axis is pushed neither way. */
  function AxisBelow(pad: Pad, i: nat): bool
  {
    i < |pad.axes| && pad.axes[i] < -0.5
  }

  function AxisAbove(pad: Pad, i: nat): bool
  {
    i < |pad.axes| && pad.axes[i] > 0.5
  }

  /** Whether the poll reports a flag as on: its button, or for the d-pad also a stick
      pushed past half way (axis 1 vertical, negative up; axis 0 horizontal, negative left). */
  function PadHolds(pad: Pad, b: Button): bool
  {
    || ButtonPressed(pad, PadIndex(b))
    || (b == Up && AxisBelow(pad, 1))
    || (b == Down && AxisAbove(pad, 1))
    || (b == Left && AxisBelow(pad, 0))
    || (b == Right && AxisAbove(pad, 0))
  }

  /** The order in which a tick commits the flags. */
  const PollOrder: seq<Button> :=
    [Up, Down, Left, Right, A, B, X, Y, L1, R1, L2, R2, L3, R3, Share, Options]

  /** A tick's commits, one after the other: each listed button's flag takes what the pad
      reports, and an unlisted one keeps its value. */
  function CommitPad(s: JoyStore, pad: Pad, buttons: seq<Button>): (r: JoyStore)
    ensures forall b :: b in r.flags <==> if b in buttons then PadHolds(pad, b) else b in s.flags
    ensures r.isControllerConnected == s.isControllerConnected && r.isListening == s.isListening
    decreases |buttons|
  {
    if |buttons| == 0 then s
    else
      assert buttons == [buttons[0]] + buttons[1..];
      CommitPad(SetFlag(s, buttons[0], PadHolds(pad, buttons[0])), pad, buttons[1..])
  }

  /** Every button is committed by a tick. */
  lemma PollOrderComplete(b: Button)
    ensures b in PollOrder
  {
    match b
    case Up => assert PollOrder[0] == b;
    case Down => assert PollOrder[1] == b;
    case Left => assert PollOrder[2] == b;
    case Right => assert PollOrder[3] == b;
    case A => assert PollOrder[4] == b;
    case B => assert PollOrder[5] == b;
    case X => assert PollOrder[6] == b;
    case Y => assert PollOrder[7] == b;
    case L1 => assert PollOrder[8] == b;
    case R1 => assert PollOrder[9] == b;
    case L2 => assert PollOrder[10] == b;
    case R2 => assert PollOrder[11] == b;
    case L3 => assert PollOrder[12] == b;
    case R3 => assert PollOrder[13] == b;
    case Share => assert PollOrder[14] == b;
    case Options => assert PollOrder[15] == b;
  }

  /** All sixteen commits of a tick: afterwards a flag is on exactly when the pad reports
      it, whatever the flags were before. */
  function CommitTick(s: JoyStore, pad: Pad): (r: JoyStore)
    ensures forall b :: b in r.flags <==> PadHolds(pad, b)
    ensures r.isControllerConnected == s.isControllerConnected && r.isListening == s.isListening
  {
    var r := CommitPad(s, pad, PollOrder);
    assert forall b :: b in r.flags <==> PadHolds(pad, b) by {
      forall b ensures b in r.flags <==> PadHolds(pad, b) {
        PollOrderComplete(b);
      }
    }
    r
  }

  /** The first gamepad of a `navigator.getGamepads()` result, if there is a list and its
      first slot holds a pad. */
  function FirstPad(gamepads: Option<seq<Option<Pad>>>): Option<Pad>
  {
    if gamepads.None? || |gamepads.value| == 0 then None else gamepads.value[0]
  }

  /** One interval tick. Without a gamepad list or a first gamepad nothing changes;
      otherwise every one of the sixteen flags is overwritten with what the pad reports,
      and nothing else changes. */
  function Poll(s: Input, gamepads: Option<seq<Option<Pad>>>): (r: Input)
    ensures s.interval.None? || FirstPad(gamepads).None? ==> r == s
    ensures s.interval.Some? && FirstPad(gamepads).Some? ==>
      && (forall b :: b in r.store.flags <==> PadHolds(FirstPad(gamepads).value, b))
      && r == s.(store := s.store.(flags := r.store.flags))
  {
    if s.interval.None? then s
    else
      match FirstPad(gamepads)
      case None => s
      case Some(pad) => s.(store := CommitTick(s.store, pad))
  }

  /** A set of flags that is exactly a pad's reading, index by index: buttons 0 to 11 set
      their own flag and nothing else, a button the pad does not report reads as released,
      and each d-pad flag is its button or the stick pushed past half way in its
      direction. */
  lemma ReadingByIndex(pad: Pad, flags: set<Button>)
    requires forall b :: b in flags <==> PadHolds(pad, b)
    ensures forall i: nat :: i < 12 ==> (ButtonAt(i).value in flags <==> i < |pad.buttons| && pad.buttons[i])
    ensures Up in flags <==> ButtonPressed(pad, 12) || AxisBelow(pad, 1)
    ensures Down in flags <==> ButtonPressed(pad, 13) || AxisAbove(pad, 1)
    ensures Left in flags <==> ButtonPressed(pad, 14) || AxisBelow(pad, 0)
    ensures Right in flags <==> ButtonPressed(pad, 15) || AxisAbove(pad, 0)
  {
    forall i: nat | i < 12
      ensures ButtonAt(i).value in flags <==> i < |pad.buttons| && pad.buttons[i]
    {
      PadTableBijective(ButtonAt(i).value, i);
    }
  }

  /** What a tick reads, index by index (see `ReadingByIndex`). */
  lemma PollReadsButtons(s: Input, gamepads: Option<seq<Option<Pad>>>)
    requires s.interval.Some? && FirstPad(gamepads).Some?
    ensures var pad := FirstPad(gamepads).value; var flags := Poll(s, gamepads).store.flags;
      && (forall i: nat :: i < 12 ==> (ButtonAt(i).value in flags <==> i < |pad.buttons| && pad.buttons[i]))
      && (Up in flags <==> ButtonPressed(pad, 12) || AxisBelow(pad, 1))
      && (Down in flags <==> ButtonPressed(pad, 13) || AxisAbove(pad, 1))
      && (Left in flags <==> ButtonPressed(pad, 14) || AxisBelow(pad, 0))
      && (Right in flags <==> ButtonPressed(pad, 15) || AxisAbove(pad, 0))
  {
    ReadingByIndex(FirstPad(gamepads).value, Poll(s, gamepads).store.flags);
  }

  // ---------------------------------------------------------------------------
  // Invariant
  // ---------------------------------------------------------------------------

  /** The events and actions of the store. */
  datatype Event =
    | Init
    | Stop
    | Listen(handle: nat)
    | Press(key: string)
    | Release(key: string)
    | PadConnect(handle: nat)
    | PadDisconnect
    | Tick(gamepads: Option<seq<Option<Pad>>>)

  function Apply(s: Input, e: Event): Input
  {
    match e
    case Init => InitJoystick(s)
    case Stop => StopJoystick(s)
    case Listen(h) => ListenToInputs(s, h)
    case Press(k) => KeyDown(s, k)
    case Release(k) => KeyUp(s, k)
    case PadConnect(h) => GamepadConnected(s, h)
    case PadDisconnect => GamepadDisconnected(s)
    case Tick(g) => Poll(s, g)
  }

  /** Every event keeps the module variables consistent with the store and the window. */
  lemma ApplyKeepsValid(s: Input, e: Event)
    requires Valid(s)
    ensures Valid(Apply(s, e))
  {
    match e {
      case Init =>
      case Stop =>
      case Listen(h) =>
      case Press(k) => KeyDownEvent(s, k);
      case Release(k) => KeyUpEvent(s, k);
      case PadConnect(h) =>
      case PadDisconnect =>
      case Tick(g) =>
    }
  }
}

=== FILE: mqtt.dfy ===
/** The `mqtt` store: the client handle and connection flag, a bounded newest-first
    message history, the last error, and the list of subscribed topics.

    The MQTT library is left outside: what it returns or reports (a client, a thrown
    connect error, a SUBACK, a callback error, an incoming message) is a parameter of the
    action or event that receives it. */
module Mqtt {
  import opened Outcomes
  import opened Seqs

  /** The history keeps at most this many messages. */
  const HistoryCap: nat := 100

  /** The SUBACK return code for a refused subscription (section 3.9.3 of MQTT 3.1.1). */
  const SubackFailure: int := 0x80

  /** A stored message: its topic, its payload as text, and when it arrived. */
  datatype Message = Message(topic: string, message: string, timestamp: string)

  /** A client returned by `mqtt.connect`; only its identity matters. */
  datatype Client = Client(id: nat)

  /** The errors the actions reject with or record. */
  datatype Fault =
    | NoTopic
    | NotConnected
    | NoClient
    | Timeout
    | ClientError(detail: string)
    | SubscriptionRejected(topic: string)

  datatype MqttState = MqttState(
    client: Option<Client>,
    isConnected: bool,
    messages: seq<Message>,
    error: Option<Fault>,
    subscribedTopics: seq<string>)

  /** The state the store starts in, and returns to on `RESET_STATE`. */
  function Initial(): (s: MqttState)
    ensures s.client.None? && !s.isConnected && s.error.None?
    ensures s.messages == [] && s.subscribedTopics == []
  {
    MqttState(None, false, [], None, [])
  }

  /** The bookkeeping every reachable state satisfies. */
  predicate Valid(s: MqttState)
  {
    |s.messages| <= HistoryCap && NoDup(s.subscribedTopics)
  }

  // ---------------------------------------------------------------------------------
  // Getter and mutations

  /** `getMessagesByTopic(topic)`: exactly the stored messages on `topic`, newest first. */
  function GetMessagesByTopic(s: MqttState, topic: string): (r: seq<Message>)
    ensures forall m :: m in r <==> m in s.messages && m.topic == topic
    ensures forall m :: multiset(r)[m] == if m.topic == topic then multiset(s.messages)[m] else 0
    ensures SubsequenceOf(r, s.messages)
  {
    Filter(s.messages, (m: Message) => m.topic == topic)
  }

  /** The history after `ADD_MESSAGE`: the payload first and, past the cap, without the
      oldest message. */
  function PushNewest(history: seq<Message>, payload: Message): (r: seq<Message>)
    ensures |r| > 0 && r[0] == payload
    ensures |history| <= HistoryCap ==> |r| <= HistoryCap
    ensures |history| < HistoryCap ==> r[1..] == history
    ensures |history| >= HistoryCap ==> r[1..] == history[..|history| - 1]
  {
    var grown := [payload] + history;
    if |grown| > HistoryCap then grown[..|grown| - 1] else grown
  }

  /** `ADD_MESSAGE`: only the history changes. */
  function AddMessage(s: MqttState, payload: Message): (r: MqttState)
    ensures r.messages == PushNewest(s.messages, payload)
    ensures r.(messages := s.messages) == s
  {
    s.(messages := PushNewest(s.messages, payload))
  }

  /** `ADD_SUBSCRIBED_TOPIC`: append the topic unless it is already listed. */
  function AddSubscribedTopic(topics: seq<string>, topic: string): (r: seq<string>)
    ensures forall t :: t in r <==> t in topics || t == topic
    ensures NoDup(topics) ==> NoDup(r)
    ensures topic in topics ==> r == topics
    ensures |topics| <= |r| <= |topics| + 1 && r[..|topics|] == topics
  {
    if topic in topics then topics else topics + [topic]
  }

  /** `REMOVE_SUBSCRIBED_TOPIC`: drop every occurrence of the topic, keeping the others in
      their order. */
  function RemoveSubscribedTopic(topics: seq<string>, topic: string): (r: seq<string>)
    ensures topic !in r
    ensures forall t :: t != topic ==> multiset(r)[t] == multiset(topics)[t]
    ensures SubsequenceOf(r, topics)
    ensures NoDup(topics) ==> NoDup(r)
  {
    var r := Filter(topics, (t: string) => t != topic);
    assert NoDup(topics) ==> NoDup(r) by {
      if NoDup(topics) {
        SubsequenceKeepsNoDup(r, topics);
      }
    }
    r
  }

  /** Subscribing to a new topic and then unsubscribing from it restores the list. */
  lemma AddThenRemoveTopic(topics: seq<string>, topic: string)
    requires topic !in topics
    ensures RemoveSubscribedTopic(AddSubscribedTopic(topics, topic), topic) == topics
  {
    var keep := (t: string) => t != topic;
    FilterConcat(topics, [topic], keep);
    FilterKeepsAll(topics, keep);
    assert Filter([topic], keep) == [];
  }

  // ---------------------------------------------------------------------------------
  // Actions

  /** What `mqtt.connect` does: hand back a new client, or throw. */
  datatype ConnectAttempt = Opened(client: Client) | ConnectThrew(detail: string)

  /** `connect`: nothing to do when a client is already connected; otherwise keep the new
      client (replacing a disconnected one) or record the error it threw. */
  function Connect(s: MqttState, attempt: ConnectAttempt): (r: MqttState)
    ensures s.client.Some? && s.isConnected ==> r == s
    ensures !(s.client.Some? && s.isConnected) && attempt.Opened? ==>
      r == s.(client := Some(attempt.client))
    ensures !(s.client.Some? && s.isConnected) && attempt.ConnectThrew? ==>
      r == s.(error := Some(ClientError(attempt.detail)))
    ensures r.messages == s.messages && r.subscribedTopics == s.subscribedTopics
  {
    if s.client.Some? && s.isConnected then s
    else match attempt
      case Opened(c) => s.(client := Some(c))
      case ConnectThrew(d) => s.(error := Some(ClientError(d)))
  }

  /** The client's `connect` event: mark the connection up, clear the error, and ask the
      broker again for every topic in the list (in list order). */
  function OnConnect(s: MqttState): (MqttState, seq<string>)
  {
    (s.(isConnected := true, error := None), s.subscribedTopics)
  }

  /** The client's `error` event: record the error. */
  function OnError(s: MqttState, detail: string): MqttState
  {
    s.(error := Some(ClientError(detail)))
  }

  /** The client's `close` event: the connection is down, the client is kept. */
  function OnClose(s: MqttState): MqttState
  {
    s.(isConnected := false)
  }

  /** The connection is usable: there is a client and it reported `connect`. */
  predicate Connected(s: MqttState)
  {
    s.client.Some? && s.isConnected
  }

  /** A connection's life: a new client is usable only once it reports `connect`, which
      clears any recorded error and re-requests exactly the listed topics; a `close` makes
      it unusable again but keeps the client, the history and the topics, so the next
      `connect` event re-subscribes the same list; and a `connect` action while unusable
      replaces the kept client. */
  lemma ConnectionLifecycle(s: MqttState, c: Client, c2: Client, detail: string)
    requires !s.isConnected
    ensures var joined := Connect(s, Opened(c));
      var up := OnConnect(OnError(joined, detail));
      var down := OnClose(up.0);
      && !Connected(joined)
      && Connected(up.0) && up.0.error.None? && up.1 == s.subscribedTopics
      && !Connected(down) && down.client == Some(c)
      && down.messages == s.messages && down.subscribedTopics == s.subscribedTopics
      && OnConnect(down).1 == s.subscribedTopics
      && Connect(down, Opened(c2)).client == Some(c2)
  {
  }

  /** A `connect` while a client exists but is down replaces it without ending it. Client
      events are not tied to a client, so both clients' handlers keep committing: once
      both are up, a message each of them delivers enters the history twice. */
  lemma ReplacedClientDeliversTwice(s: MqttState, newClient: Client, m: Message)
    requires s.client.Some? && !s.isConnected
    ensures var r := Connect(s, Opened(newClient));
      && r.client == Some(newClient) && r.messages == s.messages
      && var twice := AddMessage(AddMessage(r, m), m).messages;
         |twice| >= 2 && twice[0] == m && twice[1] == m
  {
  }

  /** `disconnect`: without a client nothing happens; with one, the client is ended
      (forcibly, and it is the one handed back) and the store forgets everything: it is
      unusable, without history, topics or error, exactly as it started. */
  function Disconnect(s: MqttState): (r: (MqttState, Option<Client>))
    ensures s.client.None? ==> r.0 == s && r.1.None?
    ensures s.client.Some? ==> r.1 == s.client && !Connected(r.0)
    ensures s.client.Some? ==> r.0.messages == [] && r.0.subscribedTopics == [] && r.0.error.None?
    ensures s.client.Some? ==> r.0 == Initial()
  {
    if s.client.Some? then (Initial(), s.client) else (s, None)
  }

  /** The broker's reply to a SUBSCRIBE: a callback error, or the granted QoS list. */
  datatype SubAck = SubscribeFailed(detail: string) | Granted(qos: seq<int>)

  /** The result of `subscribe`: the new state, how the promise settles (a fulfilled value
      is the granted list, absent when nothing was asked of the broker), and whether a
      SUBSCRIBE went out. */
  datatype Subscribed = Subscribed(state: MqttState, result: Settled<Option<seq<int>>, Fault>, requested: bool)

  /** `subscribe(topic)`: reject without a topic or a connection, settle at once for a
      topic already listed, and otherwise ask the broker; a callback error or a first
      granted QoS of 0x80 rejects and records the error, anything else lists the topic.
      An empty `topic` stands for every falsy one. */
  function Subscribe(s: MqttState, topic: string, ack: SubAck): (r: Subscribed)
    ensures topic == "" ==> r == Subscribed(s, Rejected(NoTopic), false)
    ensures topic != "" && !Connected(s) ==> r == Subscribed(s, Rejected(NotConnected), false)
    ensures topic != "" && Connected(s) && topic in s.subscribedTopics ==>
      r == Subscribed(s, Resolved(None), false)
    ensures topic != "" && Connected(s) && topic !in s.subscribedTopics && ack.SubscribeFailed? ==>
      r == Subscribed(s.(error := Some(ClientError(ack.detail))), Rejected(ClientError(ack.detail)), true)
    ensures topic != "" && Connected(s) && topic !in s.subscribedTopics && ack.Granted? && !(|ack.qos| > 0 && ack.qos[0] == SubackFailure) ==>
      r == Subscribed(s.(subscribedTopics := s.subscribedTopics + [topic]), Resolved(Some(ack.qos)), true)
    ensures ack.Granted? && |ack.qos| > 0 && ack.qos[0] == SubackFailure ==> topic !in r.state.subscribedTopics || topic in s.subscribedTopics
    ensures r.result.Rejected? ==> r.state.subscribedTopics == s.subscribedTopics
    ensures r.state.messages == s.messages && r.state.client == s.client && r.state.isConnected == s.isConnected
    ensures NoDup(s.subscribedTopics) ==> NoDup(r.state.subscribedTopics)
  {
    if topic == "" then Subscribed(s, Rejected(NoTopic), false)
    else if !Connected(s) then Subscribed(s, Rejected(NotConnected), false)
    else if topic in s.subscribedTopics then Subscribed(s, Resolved(None), false)
    else match ack
      case SubscribeFailed(d) =>
        Subscribed(s.(error := Some(ClientError(d))), Rejected(ClientError(d)), true)
      case Granted(qos) =>
        if |qos| > 0 && qos[0] == SubackFailure then
          Subscribed(s.(error := Some(SubscriptionRejected(topic))), Rejected(SubscriptionRejected(topic)), true)
        else
          Subscribed(s.(subscribedTopics := AddSubscribedTopic(s.subscribedTopics, topic)), Resolved(Some(qos)), true)
  }

  /** Once a topic is given and the client is connected, `subscribe` fulfils exactly when
      the topic ends up listed, and a SUBSCRIBE goes out exactly when it was not listed. */
  lemma SubscribeResolvesIffListed(s: MqttState, topic: string, ack: SubAck)
    requires topic != "" && Connected(s)
    ensures var r := Subscribe(s, topic, ack);
      && (r.result.Resolved? <==> topic in r.state.subscribedTopics)
      && (r.requested <==> topic !in s.subscribedTopics)
  {
  }

  /** A refused subscription (first granted QoS 0x80) rejects, records the refusal, and
      leaves the topic list alone. */
  lemma SubscribeRefused(s: MqttState, topic: string, qos: seq<int>)
    requires topic != "" && Connected(s) && topic !in s.subscribedTopics
    requires |qos| > 0 && qos[0] == SubackFailure
    ensures var r := Subscribe(s, topic, Granted(qos));
      && r.result == Rejected(SubscriptionRejected(topic))
      && r.state == s.(error := Some(SubscriptionRejected(topic)))
  {
  }

  /** The result of `unsubscribe` and `publish`: the new state and how the promise settles. */
  datatype Settles = Settles(state: MqttState, result: Settled<(), Fault>)

  /** `unsubscribe(topic)`: reject when not connected; otherwise ask the broker, and on
      success drop the topic from the list. A callback error rejects without recording it. */
  function Unsubscribe(s: MqttState, topic: string, reply: Option<string>): (r: Settles)
    ensures !Connected(s) ==> r == Settles(s, Rejected(NotConnected))
    ensures Connected(s) && reply.Some? ==> r == Settles(s, Rejected(ClientError(reply.value)))
    ensures Connected(s) && reply.None? ==>
      r == Settles(s.(subscribedTopics := RemoveSubscribedTopic(s.subscribedTopics, topic)), Resolved(()))
    ensures r.result.Resolved? ==>
      r.state == s.(subscribedTopics := RemoveSubscribedTopic(s.subscribedTopics, topic))
    ensures NoDup(s.subscribedTopics) ==> NoDup(r.state.subscribedTopics)
  {
    if !Connected(s) then Settles(s, Rejected(NotConnected))
    else match reply
      case Some(err) => Settles(s, Rejected(ClientError(err)))
      case None => Settles(s.(subscribedTopics := RemoveSubscribedTopic(s.subscribedTopics, topic)), Resolved(()))
  }

  /** `publish`: reject when not connected; a callback error rejects and is recorded.
      Publishing never touches anything but the recorded error. */
  function Publish(s: MqttState, reply: Option<string>): (r: Settles)
    ensures r.state.(error := s.error) == s
    ensures r.result.Resolved? <==> Connected(s) && reply.None?
    ensures !Connected(s) ==> r.result == Rejected(NotConnected)
    ensures r.state.error != s.error ==> Connected(s) && reply.Some? && r.state.error == Some(ClientError(reply.value))
    ensures Connected(s) && reply.Some? ==> r.result == Rejected(ClientError(reply.value)) && r.state.error == Some(r.result.error)
  {
    if !Connected(s) then Settles(s, Rejected(NotConnected))
    else match reply
      case Some(err) => Settles(s.(error := Some(ClientError(err))), Rejected(ClientError(err)))
      case None => Settles(s, Resolved(()))
  }

  // ---------------------------------------------------------------------------------
  // Waiting for one message

  /** A message as the client delivers it to a listener. */
  datatype Arrival = Arrival(topic: string, payload: string)

  /** The waiter's handler takes this message: right topic, and the filter (when one is
      given) accepts the payload. */
  predicate Accepts(topic: string, filter: Option<string -> bool>, a: Arrival)
  {
    a.topic == topic && (filter.None? || filter.value(a.payload))
  }

  /** `waitForMessage({ topic, filter })`, with `arrivals` the messages the client delivers
      before the timer fires: fulfil with the payload of the first accepted message, or
      reject on timeout when none is accepted. Without a client, registering the listener
      throws and the promise rejects. */
  method WaitForMessage(s: MqttState, topic: string, filter: Option<string -> bool>, arrivals: seq<Arrival>)
    returns (r: Settled<string, Fault>)
    ensures s.client.None? ==> r == Rejected(NoClient)
    ensures s.client.Some? ==>
      (r.Resolved? <==> exists i :: 0 <= i < |arrivals| && Accepts(topic, filter, arrivals[i]))
    ensures s.client.Some? && r.Resolved? ==>
      exists i :: && 0 <= i < |arrivals| && Accepts(topic, filter, arrivals[i])
                  && r.value == arrivals[i].payload
                  && forall j :: 0 <= j < i ==> !Accepts(topic, filter, arrivals[j])
    ensures s.client.Some? && r.Rejected? ==> r.error == Timeout
  {
    if s.client.None? {
      return Rejected(NoClient);
    }
    var k := 0;
    while k < |arrivals|
      invariant 0 <= k <= |arrivals|
      invariant forall j :: 0 <= j < k ==> !Accepts(topic, filter, arrivals[j])
    {
      if Accepts(topic, filter, arrivals[k]) {
        return Resolved(arrivals[k].payload);
      }
      k := k + 1;
    }
    return Rejected(Timeout);
  }

  // ---------------------------------------------------------------------------------
  // The history over time, and the invariant of the store

  /** The history after the client delivers `arrivals`, oldest first. */
  function PushAll(history: seq<Message>, arrivals: seq<Message>): seq<Message>
    decreases |arrivals|
  {
    if |arrivals| == 0 then history
    else PushAll(PushNewest(history, arrivals[0]), arrivals[1..])
  }

  /** `s` newest first. */
  function Reverse<T>(s: seq<T>): (r: seq<T>)
    ensures |r| == |s|
    ensures forall i :: 0 <= i < |s| ==> r[i] == s[|s| - 1 - i]
  {
    if |s| == 0 then [] else Reverse(s[1..]) + [s[0]]
  }

  function Min(a: int, b: int): int
  {
    if a <= b then a else b
  }

  /** The history is always the newest messages, newest first: after any arrivals it
      holds the latest arrivals in reverse order followed by what was kept before, cut
      at the cap. */
  lemma {:induction false} HistoryIsNewestFirst(history: seq<Message>, arrivals: seq<Message>)
    requires |history| <= HistoryCap
    ensures PushAll(history, arrivals) ==
      (Reverse(arrivals) + history)[..Min(|arrivals| + |history|, HistoryCap)]
    decreases |arrivals|
  {
    if |arrivals| != 0 {
      var x, rest := arrivals[0], arrivals[1..];
      var g := [x] + history;
      var m1 := Min(|g|, HistoryCap);
      var h1 := PushNewest(history, x);
      assert h1 == g[..m1];
      HistoryIsNewestFirst(h1, rest);
      assert Reverse(arrivals) + history == Reverse(rest) + g;
      PrefixOfConcat(Reverse(rest), g, m1, Min(|rest| + |g|, HistoryCap));
    }
  }

  /** Cutting the tail of a concatenation early changes nothing in a shorter prefix. */
  lemma PrefixOfConcat<T>(p: seq<T>, q: seq<T>, m: nat, n: nat)
    requires m <= |q| && n <= |p| + m
    ensures (p + q[..m])[..n] == (p + q)[..n]
  {
  }

  /** Starting empty, the history is the last (at most 100) messages, newest first. */
  lemma {:induction false} HistoryFromEmpty(arrivals: seq<Message>)
    ensures PushAll([], arrivals) == Reverse(arrivals)[..Min(|arrivals|, HistoryCap)]
  {
    HistoryIsNewestFirst([], arrivals);
    assert Reverse(arrivals) + [] == Reverse(arrivals);
  }

  /** Everything that changes the store: the actions (with their library outcomes) and the
      client's events. */
  datatype Action =
    | DoConnect(attempt: ConnectAttempt)
    | DoDisconnect
    | DoSubscribe(topic: string, ack: SubAck)
    | DoUnsubscribe(topic: string, reply: Option<string>)
    | DoPublish(reply: Option<string>)
    | DoClearMessages
    | DoClearTopics
    | ClientConnected
    | ClientMessage(msg: Message)
    | ClientErrored(detail: string)
    | ClientClosed

  function Apply(s: MqttState, a: Action): MqttState
  {
    match a
    case DoConnect(attempt) => Connect(s, attempt)
    case DoDisconnect => Disconnect(s).0
    case DoSubscribe(topic, ack) => Subscribe(s, topic, ack).state
    case DoUnsubscribe(topic, reply) => Unsubscribe(s, topic, reply).state
    case DoPublish(reply) => Publish(s, reply).state
    case DoClearMessages => s.(messages := [])
    case DoClearTopics => s.(subscribedTopics := [])
    case ClientConnected => OnConnect(s).0
    case ClientMessage(m) => AddMessage(s, m)
    case ClientErrored(d) => OnError(s, d)
    case ClientClosed => OnClose(s)
  }

  function Run(s: MqttState, actions: seq<Action>): MqttState
    decreases |actions|
  {
    if |actions| == 0 then s else Run(Apply(s, actions[0]), actions[1..])
  }

  /** Every action and event keeps the history within its cap and the topic list free of
      duplicates. */
  lemma ApplyKeepsValid(s: MqttState, a: Action)
    requires Valid(s)
    ensures Valid(Apply(s, a))
  {
  }

  /** From the initial state, every run of actions and events ends in a valid state. */
  lemma {:induction false} RunKeepsValid(s: MqttState, actions: seq<Action>)
    requires Valid(s)
    ensures Valid(Run(s, actions))
    decreases |actions|
  {
    if |actions| != 0 {
      ApplyKeepsValid(s, actions[0]);
      RunKeepsValid(Apply(s, actions[0]), actions[1..]);
    }
  }
}

=== FILE: stream_topic.dfy ===
/** `getTopicByStreamURL` of the `mqtt` store: derive the control topic of a device from
    the URL of its video stream.

    The scheme rewrite, the fallback regular expression and the segment pipeline are
    modelled exactly; the WHATWG URL parser is a parameter that maps the rewritten URL to
    its pathname, or to `None` where `new URL` throws. */
module StreamTopic {
  import opened Outcomes
  import opened Seqs
  import opened Text

  /** The suffix used when the caller gives none. */
  const DefaultSuffix := "control_all_device"

  // ---------------------------------------------------------------------------------
  // The scheme rewrite

  /** ASCII lower case; a case-insensitive regular expression without the `u` flag never
      folds other characters onto ASCII letters. */
  function LowerAscii(c: char): char
  {
    if 'A' <= c <= 'Z' then (c as int + 32) as char else c
  }

  /** `s` matches `^<scheme>:\/\/` with the `i` flag; `scheme` is in lower case. */
  predicate HasScheme(s: string, scheme: string)
  {
    && |s| >= |scheme| + 3
    && (forall i :: 0 <= i < |scheme| ==> LowerAscii(s[i]) == scheme[i])
    && s[|scheme|..|scheme| + 3] == "://"
  }

  /** The scheme rewrite: a leading `rtmp://`, in any letter case, becomes `http://`; then a
      leading `rtsp://`, in any letter case, becomes `http://`. Anything else is kept. */
  function RewriteScheme(raw: string): (r: string)
    ensures HasScheme(raw, "rtmp") || HasScheme(raw, "rtsp") ==> r == "http://" + raw[7..]
    ensures !HasScheme(raw, "rtmp") && !HasScheme(raw, "rtsp") ==> r == raw
  {
    var a := if HasScheme(raw, "rtmp") then "http://" + raw[7..] else raw;
    assert HasScheme(raw, "rtmp") ==> !HasScheme(a, "rtsp") by {
      if HasScheme(raw, "rtmp") { assert LowerAscii(a[0]) == 'h'; }
    }
    if HasScheme(a, "rtsp") then "http://" + a[7..] else a
  }

  // ---------------------------------------------------------------------------------
  // The fallback regular expression `/:\/\/[^/]+\/(.+)$/`

  /** The index of the first `/` at or after `from`, or `|s|` when there is none. */
  function SlashFrom(s: string, from: nat): (k: nat)
    requires from <= |s|
    ensures from <= k <= |s|
    ensures k < |s| ==> s[k] == '/'
    ensures forall j :: from <= j < k ==> s[j] != '/'
    decreases |s| - from
  {
    if from == |s| || s[from] == '/' then from else SlashFrom(s, from + 1)
  }

  /** The expression matches at `p`: `://` there, a non-empty run of non-slash characters,
      a slash, and at least one character up to the end with no line terminator among them
      (`.` does not match one and `$` is the end of the input). */
  predicate MatchesAt(raw: string, p: int)
  {
    && 0 <= p && p + 3 <= |raw| && raw[p..p + 3] == "://"
    && var k := SlashFrom(raw, p + 3);
       && p + 3 < k && k + 1 < |raw|
       && forall j :: k < j < |raw| ==> !IsLineTerminator(raw[j])
  }

  /** The captured group of a match at `p`: everything after the host's slash. */
  function CaptureAt(raw: string, p: int): string
    requires MatchesAt(raw, p)
  {
    raw[SlashFrom(raw, p + 3) + 1..]
  }

  /** The leftmost match at or after `p`, if any. */
  function MatchFrom(raw: string, p: nat): (r: Option<string>)
    ensures r.None? <==> forall q :: p <= q ==> !MatchesAt(raw, q)
    ensures r.Some? ==> exists q :: && p <= q && MatchesAt(raw, q) && r.value == CaptureAt(raw, q)
                                   && forall q' :: p <= q' < q ==> !MatchesAt(raw, q')
    decreases |raw| - p
  {
    if p + 3 > |raw| then None
    else if MatchesAt(raw, p) then Some(CaptureAt(raw, p))
    else MatchFrom(raw, p + 1)
  }

  /** The fallback when the URL does not parse: the leftmost match of the fallback pattern
      (see `MatchesAt`), reduced to its captured group, the text after the host's slash. */
  function FallbackCapture(raw: string): (r: Option<string>)
    ensures r.None? <==> forall q :: !MatchesAt(raw, q)
    ensures r.Some? ==> exists q :: && MatchesAt(raw, q) && r.value == CaptureAt(raw, q)
                                   && forall q' :: 0 <= q' < q ==> !MatchesAt(raw, q')
  {
    MatchFrom(raw, 0)
  }

  // ---------------------------------------------------------------------------------
  // Segments of a path

  /** A segment as it appears in a topic: not empty, no slash, no white space. */
  predicate WellFormedSegment(seg: string)
  {
    && seg != "" && '/' !in seg
    && forall i :: 0 <= i < |seg| ==> !IsJsSpace(seg[i])
  }

  /** The filter of the segment pipeline: a piece is kept when it holds something other
      than white space. */
  predicate NonBlank(piece: string)
  {
    !IsBlank(piece)
  }

  /** The pieces between slashes that hold something other than white space, in order. */
  function Pieces(path: string): (pieces: seq<string>)
    ensures forall i :: 0 <= i < |pieces| ==> NonBlank(pieces[i]) && '/' !in pieces[i]
    ensures forall p :: p in pieces <==> p in Split(path, '/') && NonBlank(p)
    ensures forall p :: multiset(pieces)[p] == if NonBlank(p) then multiset(Split(path, '/'))[p] else 0
    ensures SubsequenceOf(pieces, Split(path, '/'))
  {
    var split := Split(path, '/');
    var pieces := Filter(split, NonBlank);
    assert forall i :: 0 <= i < |pieces| ==> NonBlank(pieces[i]) && '/' !in pieces[i] by {
      forall i | 0 <= i < |pieces| ensures NonBlank(pieces[i]) && '/' !in pieces[i] {
        assert pieces[i] in pieces;
        var j :| 0 <= j < |split| && split[j] == pieces[i];
      }
    }
    pieces
  }

  /** The segments of a path: each piece with its white-space runs turned into underscores. */
  function PathSegments(path: string): (segs: seq<string>)
    ensures forall i :: 0 <= i < |segs| ==> WellFormedSegment(segs[i])
    ensures |segs| == |Pieces(path)|
    ensures forall i :: 0 <= i < |segs| ==> segs[i] == ScanSpaces(Pieces(path)[i], false)
  {
    var pieces := Pieces(path);
    var segs := seq(|pieces|, i requires 0 <= i < |pieces| => CollapseSpaces(pieces[i]));
    assert forall i :: 0 <= i < |segs| ==> WellFormedSegment(segs[i]) by {
      forall i | 0 <= i < |segs| ensures WellFormedSegment(segs[i]) {
        assert NonBlank(pieces[i]);
        assert |pieces[i]| > 0;
        CollapseSpacesKeepsText(pieces[i]);
      }
    }
    segs
  }

  /** The segments that make the topic: all of them, except a last one that contains a
      dot (a file name such as `index.m3u8`). */
  function DropFileName(segs: seq<string>): (kept: seq<string>)
    ensures |kept| <= |segs| && kept == segs[..|kept|]
    ensures |kept| == |segs| <==> |segs| == 0 || '.' !in segs[|segs| - 1]
    ensures |kept| >= |segs| - 1
  {
    if |segs| > 0 && '.' in segs[|segs| - 1] then segs[..|segs| - 1] else segs
  }

  /** `devices/<kept segments joined by '/'>/<suffix>`, or `None` when no segment is kept. */
  function TopicOf(segs: seq<string>, suffix: string): (r: Option<string>)
    ensures r.None? <==> |DropFileName(segs)| == 0
    ensures r.Some? ==> r.value == "devices/" + Join(DropFileName(segs), '/') + "/" + suffix
  {
    if |segs| == 0 then None
    else
      var kept := DropFileName(segs);
      if |kept| == 0 then None
      else Some("devices/" + Join(kept, '/') + "/" + suffix)
  }

  /** The segments of a path that make its topic. */
  function KeptSegments(path: string): seq<string>
  {
    DropFileName(PathSegments(path))
  }

  /** The topic built from a path. */
  function TopicFromPath(path: string, suffix: string): Option<string>
  {
    TopicOf(PathSegments(path), suffix)
  }

  /** `getTopicByStreamURL({ rawUrl, suffix })`. An empty `rawUrl` stands for every falsy
      one, and `None` for an omitted suffix. The fallback expression is tried only when
      the URL parser throws, not when the parsed path yields no topic. */
  function GetTopicByStreamURL(rawUrl: string, suffix: Option<string>, pathnameOf: string -> Option<string>)
    : (r: Option<string>)
    ensures rawUrl == "" ==> r.None?
  {
    if rawUrl == "" then None
    else
      var sfx := match suffix case Some(x) => x case None => DefaultSuffix;
      match pathnameOf(RewriteScheme(rawUrl))
      case Some(pathname) => TopicFromPath(pathname, sfx)
      case None =>
        match FallbackCapture(rawUrl)
        case None => None
        case Some(capture) => TopicFromPath(capture, sfx)
  }

  /** The path the topic is built from: the parsed pathname or, when parsing throws, the
      fallback capture. */
  function SourcePath(rawUrl: string, pathnameOf: string -> Option<string>): Option<string>
  {
    match pathnameOf(RewriteScheme(rawUrl))
    case Some(pathname) => Some(pathname)
    case None => FallbackCapture(rawUrl)
  }

  /** The topic of well-formed segments is `devices/<path>/<suffix>` where `<path>` joins
      one or more of them, the ones kept, and splitting `<path>` at its slashes gives those
      segments back. */
  lemma {:induction false} TopicOfShape(segs: seq<string>, suffix: string)
    requires forall i :: 0 <= i < |segs| ==> WellFormedSegment(segs[i])
    ensures var r := TopicOf(segs, suffix);
      var kept := DropFileName(segs);
      r.Some? ==>
        && |kept| >= 1
        && (forall i :: 0 <= i < |kept| ==> WellFormedSegment(kept[i]))
        && r.value == "devices/" + Join(kept, '/') + "/" + suffix
        && Split(Join(kept, '/'), '/') == kept
  {
    var kept := DropFileName(segs);
    if TopicOf(segs, suffix).Some? {
      assert forall i :: 0 <= i < |kept| ==> kept[i] == segs[i];
      SplitJoin(kept, '/');
    }
  }

  /** A topic is `devices/<path>/<suffix>` where `<path>` joins one or more well-formed
      segments kept from the source path, and splitting `<path>` at its slashes gives
      those segments back; there is no topic exactly when the input is empty, there is no
      path, or no segment survives. */
  lemma {:induction false} TopicShape(rawUrl: string, suffix: Option<string>, pathnameOf: string -> Option<string>)
    ensures var r := GetTopicByStreamURL(rawUrl, suffix, pathnameOf);
      var src := SourcePath(rawUrl, pathnameOf);
      && (r.None? <==> rawUrl == "" || src.None? || |KeptSegments(src.value)| == 0)
      && (r.Some? ==>
            var kept := KeptSegments(src.value);
            && |kept| >= 1
            && (forall i :: 0 <= i < |kept| ==> WellFormedSegment(kept[i]))
            && r.value == "devices/" + Join(kept, '/') + "/" + (if suffix.Some? then suffix.value else DefaultSuffix)
            && Split(Join(kept, '/'), '/') == kept)
  {
    var src := SourcePath(rawUrl, pathnameOf);
    if rawUrl != "" && src.Some? {
      TopicOfShape(PathSegments(src.value), if suffix.Some? then suffix.value else DefaultSuffix);
    }
  }

  /** The absolute path `/s1/s2/...` made of the given segments. */
  function CleanPath(segs: seq<string>): string
  {
    "/" + Join(segs, '/')
  }

  /** The pieces of a clean absolute path `/s1/s2/...` are its segments. */
  lemma CleanPathPieces(segs: seq<string>)
    requires |segs| >= 1
    requires forall i :: 0 <= i < |segs| ==> WellFormedSegment(segs[i])
    ensures Pieces(CleanPath(segs)) == segs
  {
    var path := CleanPath(segs);
    assert path == "" + ['/'] + Join(segs, '/');
    SplitHead("", '/', Join(segs, '/'));
    SplitJoin(segs, '/');
    assert Split(path, '/') == [""] + segs;
    FilterConcat([""], segs, NonBlank);
    assert Filter([""], NonBlank) == [] by {
      assert !NonBlank("");
      assert [""][1..] == [];
    }
    forall i | 0 <= i < |segs| ensures NonBlank(segs[i]) {
      assert !IsJsSpace(segs[i][0]);
    }
    FilterKeepsAll(segs, NonBlank);
  }

  /** A clean absolute path round-trips: for well-formed segments, the path `/s1/s2/...`
      gives back exactly those segments. */
  lemma CleanPathSegments(segs: seq<string>)
    requires |segs| >= 1
    requires forall i :: 0 <= i < |segs| ==> WellFormedSegment(segs[i])
    ensures PathSegments(CleanPath(segs)) == segs
  {
    var path := CleanPath(segs);
    CleanPathPieces(segs);
    var result := PathSegments(path);
    forall i | 0 <= i < |segs| ensures result[i] == segs[i] {
      CollapseSpacesIdentity(segs[i]);
    }
  }

  /** Segments whose last one has no dot all go into the topic. */
  lemma TopicOfDotless(segs: seq<string>, suffix: string)
    requires |segs| >= 1
    requires '.' !in segs[|segs| - 1]
    ensures TopicOf(segs, suffix) == Some("devices/" + Join(segs, '/') + "/" + suffix)
  {
  }

  /** When the last segment has no dot, the clean path `/s1/s2/...` yields the topic
      `devices/s1/s2/.../<suffix>`. */
  lemma {:induction false} CleanPathTopic(segs: seq<string>, suffix: string)
    requires |segs| >= 1
    requires forall i :: 0 <= i < |segs| ==> WellFormedSegment(segs[i])
    requires '.' !in segs[|segs| - 1]
    ensures TopicFromPath(CleanPath(segs), suffix) == Some("devices/" + Join(segs, '/') + "/" + suffix)
  {
    CleanPathSegments(segs);
    TopicOfDotless(segs, suffix);
  }
}

=== FILE: videos.dfy ===
/** The `videos` store: WHEP playback sessions keyed by mount, the two global playback
    flags, stream metadata, and the ICE-candidate gathering wait.

    Browser effects enter as data: a peer connection is an opaque handle, the outcome of
    every awaited step of the offer/answer exchange is a parameter, the page is a map from
    element id to what its `srcObject` holds, and closing a connection adds it to the
    page's set of closed connections. */
module Videos {
  import opened Outcomes

  type Mount = string

  /** An `RTCPeerConnection`; only its identity matters. */
  datatype Conn = Conn(id: nat)

  /** The metadata `attachStream` records under a stream id. */
  datatype StreamInfo = StreamInfo(kind: string, deviceId: string, username: string)

  /** A `MediaStream` handed to a video element: the first stream of a track event, or one
      assembled from the event's lone track (or from no track). */
  datatype MediaStream = Received(id: nat) | Assembled(tracks: seq<nat>)

  /** The module state of the store. An empty `mediamtxBase` stands for every falsy value. */
  datatype Store = Store(
    streams: map<string, Option<StreamInfo>>,
    mediamtxBase: string,
    streamStarted: bool,
    streamIsPlaying: bool,
    canToggleStream: bool,
    webrtcPCs: map<Mount, Conn>)

  /** The page around the store:
      - `videos`: the elements by id with their `srcObject`;
      - `nonMedia`: the ids in `videos` whose element is not a media element (neither video
        nor audio), so it has no `play` to call;
      - `selects`: for an id no element has, the id of the video element the fallback
        selector `video#<id>` matches, when it is a valid selector that matches one (an id
        such as `a.b` also reads as a class, so the match can carry another id);
      - `badSelectors`: the ids for which `video#<id>` is not a valid selector, so that
        `querySelector` throws when no element has that id;
      - `closed`: the connections closed so far. */
  datatype Page = Page(
    videos: map<string, Option<MediaStream>>,
    nonMedia: set<string>,
    selects: map<string, string>,
    badSelectors: set<string>,
    closed: set<Conn>)

  datatype World = World(store: Store, page: Page)

  /** A page a browser can produce: the fallback selector only ever matches a video
      element. */
  predicate PageWellFormed(p: Page)
  {
    forall i :: i in p.selects ==> p.selects[i] !in p.nonMedia
  }

  /** The state the store starts in, given the configured base URL. */
  function Initial(envBase: string): (s: Store)
    ensures s.webrtcPCs == map[] && s.streams == map[]
    ensures !s.streamStarted && !s.streamIsPlaying && s.canToggleStream
    ensures IsInitialized(s) <==> envBase != ""
  {
    Store(map[], envBase, false, false, true, map[])
  }

  // ---------------------------------------------------------------------------------
  // Getters and mutations

  /** `isInitialized`: a base URL is configured. */
  predicate IsInitialized(s: Store)
  {
    s.mediamtxBase != ""
  }

  /** The `stream` argument of `SET_STREAM`: left out (`undefined`), `null`, or metadata. */
  datatype StreamArg = Undefined | Null | Given(info: StreamInfo)

  /** `SET_STREAM`: drop `id` when the stream is `undefined`; otherwise store it under
      `id`, a `null` included (a stored `null` is `None`). No other id changes. */
  function SetStream(s: Store, id: string, stream: StreamArg): (r: Store)
    ensures id in r.streams <==> !stream.Undefined?
    ensures stream.Null? ==> r.streams[id] == None
    ensures stream.Given? ==> r.streams[id] == Some(stream.info)
    ensures forall k :: k != id ==> (k in r.streams <==> k in s.streams)
    ensures forall k :: k != id && k in s.streams ==> r.streams[k] == s.streams[k]
    ensures r.(streams := s.streams) == s
  {
    match stream
    case Undefined => s.(streams := s.streams - {id})
    case Null => s.(streams := s.streams[id := None])
    case Given(info) => s.(streams := s.streams[id := Some(info)])
  }

  /** The boolean properties `SET_PROP` is used with. */
  datatype Prop = StreamStarted | StreamIsPlaying | CanToggleStream

  /** `state[key]` for a boolean property. */
  function PropOf(s: Store, key: Prop): bool
  {
    match key
    case StreamStarted => s.streamStarted
    case StreamIsPlaying => s.streamIsPlaying
    case CanToggleStream => s.canToggleStream
  }

  /** `SET_PROP`: assign one boolean property. Reading it back gives the value, the other
      properties read as before, and the registry, metadata and base are untouched. */
  function SetProp(s: Store, key: Prop, value: bool): (r: Store)
    ensures PropOf(r, key) == value
    ensures forall k :: k != key ==> PropOf(r, k) == PropOf(s, k)
    ensures r.streams == s.streams && r.webrtcPCs == s.webrtcPCs && r.mediamtxBase == s.mediamtxBase
  {
    match key
    case StreamStarted => s.(streamStarted := value)
    case StreamIsPlaying => s.(streamIsPlaying := value)
    case CanToggleStream => s.(canToggleStream := value)
  }

  /** `SET_WEBRTC_PC`: register `pc` under `mount`, replacing any earlier entry. */
  function SetWebrtcPc(s: Store, mount: Mount, pc: Conn): (r: Store)
    ensures mount in r.webrtcPCs && r.webrtcPCs[mount] == pc
    ensures forall m :: m != mount ==> (m in r.webrtcPCs <==> m in s.webrtcPCs)
    ensures forall m :: m != mount && m in s.webrtcPCs ==> r.webrtcPCs[m] == s.webrtcPCs[m]
    ensures r.(webrtcPCs := s.webrtcPCs) == s
  {
    s.(webrtcPCs := s.webrtcPCs[mount := pc])
  }

  /** `CLEAR_WEBRTC_PC`: drop the entry of `mount`, if any. */
  function ClearWebrtcPc(s: Store, mount: Mount): (r: Store)
    ensures mount !in r.webrtcPCs
    ensures forall m :: m != mount ==> (m in r.webrtcPCs <==> m in s.webrtcPCs)
    ensures forall m :: m != mount && m in s.webrtcPCs ==> r.webrtcPCs[m] == s.webrtcPCs[m]
    ensures r.(webrtcPCs := s.webrtcPCs) == s
  {
    s.(webrtcPCs := s.webrtcPCs - {mount})
  }

  /** `initializeMediaMtx`: adopt a truthy base URL; a falsy one changes nothing. */
  function InitializeMediaMtx(s: Store, baseUrl: string): (r: Store)
    ensures baseUrl == "" ==> r == s
    ensures baseUrl != "" ==> r == s.(mediamtxBase := baseUrl) && IsInitialized(r)
  {
    if baseUrl == "" then s else s.(mediamtxBase := baseUrl)
  }

  // ---------------------------------------------------------------------------------
  // The WHEP endpoint

  /** The base with every trailing slash removed. */
  function StripTrailingSlashes(base: string): (r: string)
    ensures |r| <= |base| && r == base[..|r|]
    ensures |r| == 0 || r[|r| - 1] != '/'
    ensures forall i :: |r| <= i < |base| ==> base[i] == '/'
  {
    if |base| > 0 && base[|base| - 1] == '/' then StripTrailingSlashes(base[..|base| - 1])
    else base
  }

  /** Stripping twice strips no more than stripping once. */
  lemma StripTrailingSlashesIdempotent(base: string)
    ensures StripTrailingSlashes(StripTrailingSlashes(base)) == StripTrailingSlashes(base)
  {
    var r := StripTrailingSlashes(base);
    assert |r| == 0 || r[|r| - 1] != '/';
  }

  /** The WHEP endpoint of a mount: the base without its trailing slashes, a slash, the
      URI-component encoding of the mount (`encodedMount`), and `/whep`. */
  function Endpoint(base: string, encodedMount: string): string
  {
    StripTrailingSlashes(base) + "/" + encodedMount + "/whep"
  }

  /** However many slashes end the base, the endpoint has exactly one between the base and
      the mount: it is the slash-free base, a slash, the encoded mount and `/whep`. */
  lemma EndpointShape(base: string, encodedMount: string)
    ensures var e := Endpoint(base, encodedMount);
      var b := StripTrailingSlashes(base);
      && e[..|b|] == b && e[|b|] == '/' && (|b| == 0 || e[|b| - 1] != '/')
      && e[|b| + 1..|b| + 1 + |encodedMount|] == encodedMount
      && e[|b| + 1 + |encodedMount|..] == "/whep"
      && Endpoint(b, encodedMount) == e
  {
    StripTrailingSlashesIdempotent(base);
  }

  // ---------------------------------------------------------------------------------
  // Waiting for ICE candidates

  datatype GatheringState = NewGathering | Gathering | Complete

  /** An `icegatheringstatechange` event: when it fires, and the state it reports. */
  datatype GatherEvent = GatherEvent(at: nat, state: GatheringState)

  /** Why and when the gathering wait resolved. */
  datatype GatherCause = NoConnection | AlreadyComplete | GatheringCompleted | TimedOut
  datatype Resolution = Resolution(at: nat, cause: GatherCause)

  /** The default wait of `gatherLocalCandidates`, in milliseconds. */
  const DefaultGatherTimeout: nat := 5000

  /** The wait the caller asked for, or the default when it passed none. */
  function GatherTimeout(requested: Option<nat>): nat
  {
    if requested.Some? then requested.value else DefaultGatherTimeout
  }

  /** The event at `i` is the one the wait's handler resolves on: it fires before the
      timer, reports `complete`, and every earlier event fired before the timer without
      reporting `complete`. An event at the very instant of the timer loses to it. */
  predicate CompletesAt(events: seq<GatherEvent>, timeout: nat, i: int)
  {
    && 0 <= i < |events|
    && events[i].state == Complete && events[i].at < timeout
    && forall j :: 0 <= j < i ==> events[j].state != Complete && events[j].at < timeout
  }

  /** `gatherLocalCandidates(pc, timeout)`: resolve at once without a connection (`pc` is
      `None`) or when gathering is already complete; otherwise resolve on the first
      `complete` notification before the timer, or when the timer fires. Without a
      `requested` wait the timer is the default one. The wait never rejects: every outcome
      is a resolution. */
  method GatherLocalCandidates(pc: Option<GatheringState>, events: seq<GatherEvent>, requested: Option<nat>)
    returns (r: Resolution)
    ensures var timeout := GatherTimeout(requested);
      && (requested.None? ==> timeout == DefaultGatherTimeout)
      && (pc.None? ==> r == Resolution(0, NoConnection))
      && (pc == Some(Complete) ==> r == Resolution(0, AlreadyComplete))
      && r.at <= timeout
      && (pc.Some? && pc != Some(Complete) ==>
          (r.cause == GatheringCompleted <==> exists i :: CompletesAt(events, timeout, i)))
      && (pc.Some? && pc != Some(Complete) ==>
          forall i :: CompletesAt(events, timeout, i) ==> r == Resolution(events[i].at, GatheringCompleted))
      && (pc.Some? && pc != Some(Complete) && r.cause != GatheringCompleted ==>
          r == Resolution(timeout, TimedOut))
  {
    r := WaitForGathering(pc, events, GatherTimeout(requested));
  }

  /** The wait with its timer fixed. */
  method WaitForGathering(pc: Option<GatheringState>, events: seq<GatherEvent>, timeout: nat)
    returns (r: Resolution)
    ensures pc.None? ==> r == Resolution(0, NoConnection)
    ensures pc == Some(Complete) ==> r == Resolution(0, AlreadyComplete)
    ensures r.at <= timeout
    ensures pc.Some? && pc != Some(Complete) ==>
      (r.cause == GatheringCompleted <==> exists i :: CompletesAt(events, timeout, i))
    ensures pc.Some? && pc != Some(Complete) ==>
      forall i :: CompletesAt(events, timeout, i) ==> r == Resolution(events[i].at, GatheringCompleted)
    ensures pc.Some? && pc != Some(Complete) && r.cause != GatheringCompleted ==>
      r == Resolution(timeout, TimedOut)
  {
    if pc.None? {
      return Resolution(0, NoConnection);
    }
    if pc == Some(Complete) {
      return Resolution(0, AlreadyComplete);
    }
    var k := 0;
    while k < |events|
      invariant 0 <= k <= |events|
      invariant forall j :: 0 <= j < k ==> events[j].state != Complete && events[j].at < timeout
    {
      var ev := events[k];
      if ev.at >= timeout {
        // the timer fired first and removed the listener
        forall i | 0 <= i < |events| ensures !CompletesAt(events, timeout, i) {
          if i > k { assert events[k].at >= timeout; }
        }
        return Resolution(timeout, TimedOut);
      }
      if ev.state == Complete {
        assert CompletesAt(events, timeout, k);
        forall i | 0 <= i < |events| && i != k ensures !CompletesAt(events, timeout, i) {
          if i > k { assert events[k].state == Complete; }
        }
        return Resolution(ev.at, GatheringCompleted);
      }
      k := k + 1;
    }
    return Resolution(timeout, TimedOut);
  }

  // ---------------------------------------------------------------------------------
  // Starting a session

  /** The awaited steps of `playWithWhep`, in the order they run. */
  datatype Step = CreateOffer | SetLocalDescription | PostOffer | ReadAnswer | SetRemoteDescription

  /** What the browser and the media server do during one start: the step that throws, if
      any (the gathering wait never does), the local SDP that is posted, and the HTTP
      status and body of the reply. */
  datatype Exchange = Exchange(raisesAt: Option<Step>, localSdp: string, status: int, body: string)

  /** The POST request `fetch` is called with. */
  datatype Request = Request(url: string, contentType: string, body: string)

  /** `res.ok`: a 2xx status. */
  predicate IsOkStatus(status: int)
  {
    200 <= status <= 299
  }

  /** The result of `playWithWhep`: the new world, the boolean it returns, and the request
      it posted (absent when it stopped before `fetch`). */
  datatype Played = Played(world: World, ok: bool, request: Option<Request>)

  /** `pc.close()`. */
  function Close(w: World, pc: Conn): World
  {
    w.(page := w.page.(closed := w.page.closed + {pc}))
  }

  /** `playWithWhep({ mount, videoElementId })` with `pc` the freshly created connection
      and `encode` the library's `encodeURIComponent`. */
  function PlayWithWhep(w: World, mount: Mount, pc: Conn, encode: string -> string, ex: Exchange): (r: Played)
    ensures !IsInitialized(w.store) ==> r == Played(w, false, None)
    ensures r.ok ==> mount in r.world.store.webrtcPCs && r.world.store.webrtcPCs[mount] == pc
    ensures r.ok ==> r.world.store.streamStarted
    ensures r.request.Some? ==>
      r.request.value == Request(Endpoint(w.store.mediamtxBase, encode(mount)), "application/sdp", ex.localSdp)
  {
    if !IsInitialized(w.store) then Played(w, false, None)
    else
      var request := Request(Endpoint(w.store.mediamtxBase, encode(mount)), "application/sdp", ex.localSdp);
      if ex.raisesAt == Some(CreateOffer) || ex.raisesAt == Some(SetLocalDescription) then
        Played(Close(w, pc), false, None)
      else if ex.raisesAt == Some(PostOffer) then
        Played(Close(w, pc), false, Some(request))
      else if !IsOkStatus(ex.status) then
        // the body is read for the log only; a failed read is swallowed
        Played(Close(w, pc), false, Some(request))
      else if ex.raisesAt == Some(ReadAnswer) || ex.body == "" || ex.raisesAt == Some(SetRemoteDescription) then
        Played(Close(w, pc), false, Some(request))
      else
        var store := SetProp(SetWebrtcPc(w.store, mount, pc), StreamStarted, true);
        Played(w.(store := store), true, Some(request))
  }

  /** The start succeeds exactly when a base is configured, no step throws, the status is
      2xx and the answer is not empty. */
  lemma PlaySucceedsIff(w: World, mount: Mount, pc: Conn, encode: string -> string, ex: Exchange)
    ensures PlayWithWhep(w, mount, pc, encode, ex).ok <==>
      IsInitialized(w.store) && ex.raisesAt.None? && IsOkStatus(ex.status) && ex.body != ""
  {
    if ex.raisesAt.Some? {
      assert ex.raisesAt.value.CreateOffer? || ex.raisesAt.value.SetLocalDescription?
        || ex.raisesAt.value.PostOffer? || ex.raisesAt.value.ReadAnswer? || ex.raisesAt.value.SetRemoteDescription?;
    }
  }

  /** On success the connection is registered under the mount (replacing any earlier
      entry), `streamStarted` is set, and nothing else changes: other mounts, the playing
      flag, the stream metadata and the page. */
  lemma PlaySuccess(w: World, mount: Mount, pc: Conn, encode: string -> string, ex: Exchange)
    requires PlayWithWhep(w, mount, pc, encode, ex).ok
    ensures var w' := PlayWithWhep(w, mount, pc, encode, ex).world;
      && w'.store == w.store.(webrtcPCs := w.store.webrtcPCs[mount := pc], streamStarted := true)
      && w'.page == w.page
  {
  }

  /** A non-2xx status or an empty answer (or a step that throws) fails the start: the new
      connection is closed and the store is left exactly as it was. In particular a
      previous entry for the same mount stays registered. */
  lemma PlayFailure(w: World, mount: Mount, pc: Conn, encode: string -> string, ex: Exchange)
    requires IsInitialized(w.store)
    requires ex.raisesAt.Some? || !IsOkStatus(ex.status) || ex.body == ""
    ensures var r := PlayWithWhep(w, mount, pc, encode, ex);
      && !r.ok && r.world.store == w.store
      && r.world.page == w.page.(closed := w.page.closed + {pc})
  {
    if ex.raisesAt.Some? {
      assert ex.raisesAt.value.CreateOffer? || ex.raisesAt.value.SetLocalDescription?
        || ex.raisesAt.value.PostOffer? || ex.raisesAt.value.ReadAnswer? || ex.raisesAt.value.SetRemoteDescription?;
    }
  }

  /** The request is posted to the stripped base whenever offer creation and the local
      description succeed, and never before a base is configured. */
  lemma PlayPostsOffer(w: World, mount: Mount, pc: Conn, encode: string -> string, ex: Exchange)
    ensures PlayWithWhep(w, mount, pc, encode, ex).request.Some? <==>
      IsInitialized(w.store) && ex.raisesAt != Some(CreateOffer) && ex.raisesAt != Some(SetLocalDescription)
  {
  }

  /** A second successful start for a mount replaces the registered connection without
      closing it: the earlier connection is neither registered under the mount nor closed. */
  lemma RestartLeaksPreviousConnection(w: World, mount: Mount, pc: Conn, encode: string -> string, ex: Exchange)
    requires mount in w.store.webrtcPCs && w.store.webrtcPCs[mount] != pc
    requires w.store.webrtcPCs[mount] !in w.page.closed
    requires PlayWithWhep(w, mount, pc, encode, ex).ok
    ensures var w' := PlayWithWhep(w, mount, pc, encode, ex).world;
      && w'.store.webrtcPCs[mount] != w.store.webrtcPCs[mount]
      && w.store.webrtcPCs[mount] !in w'.page.closed
  {
  }

  // ---------------------------------------------------------------------------------
  // Media arrival, teardown and connection-state changes

  /** What the element lookup gives: the id of the element it found, nothing, or a throw. */
  datatype Lookup = Found(el: string) | Missing | SelectorThrows

  /** The element lookup: the element with the id if there is one; otherwise the fallback
      selector, which throws when it is invalid and otherwise gives the video element it
      matches, if any. */
  function LookUp(p: Page, id: string): (r: Lookup)
    ensures id in p.videos ==> r == Found(id)
    ensures r.Found? ==> r.el in p.videos
    ensures r.Found? && r.el != id ==>
      id !in p.videos && id !in p.badSelectors && id in p.selects && p.selects[id] == r.el
    ensures r == SelectorThrows <==> id !in p.videos && id in p.badSelectors
    ensures r == Missing <==>
      id !in p.videos && id !in p.badSelectors && (id !in p.selects || p.selects[id] !in p.videos)
  {
    if id in p.videos then Found(id)
    else if id in p.badSelectors then SelectorThrows
    else if id in p.selects && p.selects[id] in p.videos then Found(p.selects[id])
    else Missing
  }

  /** A track event: the streams it carries and its track, if any. */
  datatype TrackEvent = TrackEvent(streams: seq<nat>, track: Option<nat>)

  /** The stream a track event plays: its first stream if it carries any, otherwise a new
      stream assembled from its track, or an empty one when it has no track. */
  function StreamOf(ev: TrackEvent): MediaStream
  {
    if |ev.streams| > 0 then Received(ev.streams[0])
    else match ev.track
      case Some(t) => Assembled([t])
      case None => Assembled([])
  }

  /** `pc.ontrack`: show the media in the element the lookup finds and mark playback as
      started; without an element (or when the lookup throws) nothing changes. A rejected
      `play()` is swallowed, but an element that is not a media element has no `play`: the
      call throws after the media is set and before the flag is. */
  function OnTrack(w: World, videoElementId: string, ev: TrackEvent): (r: World)
    ensures LookUp(w.page, videoElementId).Found? ==>
      var el := LookUp(w.page, videoElementId).el;
      && r.page == w.page.(videos := w.page.videos[el := Some(StreamOf(ev))])
      && r.store == if el in w.page.nonMedia then w.store else w.store.(streamIsPlaying := true)
    ensures videoElementId in w.page.videos && videoElementId !in w.page.nonMedia ==>
      r.store.streamIsPlaying && r.page.videos[videoElementId] == Some(StreamOf(ev))
    ensures PageWellFormed(w.page) && videoElementId !in w.page.videos && LookUp(w.page, videoElementId).Found? ==>
      r.store.streamIsPlaying
    ensures !LookUp(w.page, videoElementId).Found? ==> r == w
  {
    match LookUp(w.page, videoElementId)
    case Found(el) =>
      var page := w.page.(videos := w.page.videos[el := Some(StreamOf(ev))]);
      if el in w.page.nonMedia then World(w.store, page)
      else World(SetProp(w.store, StreamIsPlaying, true), page)
    case _ => w
  }

  /** The result of `stopPlaying`: the new world, and whether the action rejected. */
  datatype Stopped = Stopped(world: World, threw: bool)

  /** `stopPlaying({ mount, videoElementId })`: close and unregister the mount's
      connection if it has one, detach the element's media, and clear both flags. When no
      element has the id and the fallback selector is invalid, the lookup throws after the
      connection is gone and before the flags are cleared. */
  function StopPlaying(w: World, mount: Mount, videoElementId: string): (r: Stopped)
    ensures mount !in r.world.store.webrtcPCs
    ensures forall m :: m != mount ==> (m in r.world.store.webrtcPCs <==> m in w.store.webrtcPCs)
    ensures forall m :: m != mount && m in w.store.webrtcPCs ==>
      r.world.store.webrtcPCs[m] == w.store.webrtcPCs[m]
    ensures r.threw <==> LookUp(w.page, videoElementId) == SelectorThrows
    ensures !r.threw ==> !r.world.store.streamStarted && !r.world.store.streamIsPlaying
    ensures r.threw ==>
      (r.world.store.streamStarted == w.store.streamStarted
       && r.world.store.streamIsPlaying == w.store.streamIsPlaying)
    ensures r.world.page.closed ==
      if mount in w.store.webrtcPCs then w.page.closed + {w.store.webrtcPCs[mount]} else w.page.closed
    ensures LookUp(w.page, videoElementId).Found? ==>
      r.world.page.videos == w.page.videos[LookUp(w.page, videoElementId).el := None]
    ensures !LookUp(w.page, videoElementId).Found? ==> r.world.page.videos == w.page.videos
    ensures r.world.store.streams == w.store.streams && r.world.store.mediamtxBase == w.store.mediamtxBase
    ensures r.world.store.canToggleStream == w.store.canToggleStream
    ensures r.world.page.badSelectors == w.page.badSelectors && r.world.page.nonMedia == w.page.nonMedia
    ensures r.world.page.selects == w.page.selects
  {
    var w1 :=
      if mount in w.store.webrtcPCs then
        var pc := w.store.webrtcPCs[mount];
        // sender tracks are stopped, then the connection is closed, each best-effort
        Close(w, pc).(store := ClearWebrtcPc(w.store, mount))
      else w;
    match LookUp(w1.page, videoElementId)
    case SelectorThrows => Stopped(w1, true)
    case Found(el) =>
      var w2 := w1.(page := w1.page.(videos := w1.page.videos[el := None]));
      Stopped(w2.(store := SetProp(SetProp(w2.store, StreamStarted, false), StreamIsPlaying, false)), false)
    case Missing =>
      Stopped(w1.(store := SetProp(SetProp(w1.store, StreamStarted, false), StreamIsPlaying, false)), false)
  }

  /** Stopping an absent mount leaves the registry and the closed connections alone; the
      flags and the element are still cleared. */
  lemma StopAbsentMount(w: World, mount: Mount, videoElementId: string)
    requires mount !in w.store.webrtcPCs
    requires LookUp(w.page, videoElementId) != SelectorThrows
    ensures var r := StopPlaying(w, mount, videoElementId);
      && r.world.store == w.store.(streamStarted := false, streamIsPlaying := false)
      && r.world.page.closed == w.page.closed
  {
  }

  /** `stopPlaying` is idempotent: a second stop of the same mount and element changes
      nothing more. */
  lemma StopPlayingIdempotent(w: World, mount: Mount, videoElementId: string)
    ensures var once := StopPlaying(w, mount, videoElementId);
      var twice := StopPlaying(once.world, mount, videoElementId);
      twice.world == once.world && twice.threw == once.threw
  {
    var once := StopPlaying(w, mount, videoElementId);
    assert LookUp(once.world.page, videoElementId) == LookUp(w.page, videoElementId);
  }

  /** Start then stop: after a successful start, stopping the mount closes the very
      connection that was started and leaves the mount unregistered with both flags false. */
  lemma StartThenStop(w: World, mount: Mount, pc: Conn, encode: string -> string, ex: Exchange, videoElementId: string)
    requires PlayWithWhep(w, mount, pc, encode, ex).ok
    requires LookUp(w.page, videoElementId) != SelectorThrows
    ensures var r := StopPlaying(PlayWithWhep(w, mount, pc, encode, ex).world, mount, videoElementId);
      && !r.threw && mount !in r.world.store.webrtcPCs && pc in r.world.page.closed
      && !r.world.store.streamStarted && !r.world.store.streamIsPlaying
  {
  }

  datatype IceConnectionState = IceNew | IceChecking | IceConnected | IceCompleted
                              | IceFailed | IceDisconnected | IceClosed

  /** `pc.oniceconnectionstatechange` of a connection started for `mount`: a `failed` or
      `disconnected` state dispatches `stopPlaying` for that mount; any other state is
      ignored. The handler has no guard against stopping twice. */
  function OnIceConnectionStateChange(w: World, mount: Mount, videoElementId: string, state: IceConnectionState): (r: World)
    ensures state != IceFailed && state != IceDisconnected ==> r == w
    ensures state == IceFailed || state == IceDisconnected ==>
      r == StopPlaying(w, mount, videoElementId).world
  {
    if state == IceFailed || state == IceDisconnected then StopPlaying(w, mount, videoElementId).world
    else w
  }

  /** A failed or disconnected connection ends in the stop postcondition: the mount is
      unregistered and, unless the element lookup throws, both flags are false. */
  lemma IceFailureStops(w: World, mount: Mount, videoElementId: string, state: IceConnectionState)
    requires state == IceFailed || state == IceDisconnected
    ensures var r := OnIceConnectionStateChange(w, mount, videoElementId, state);
      && mount !in r.store.webrtcPCs
      && (LookUp(w.page, videoElementId) != SelectorThrows ==> !r.store.streamStarted && !r.store.streamIsPlaying)
  {
  }

  /** `failed` followed by `disconnected` dispatches two stops; the second one changes
      nothing, so the outcome is that of a single stop. */
  lemma RepeatedIceFailure(w: World, mount: Mount, videoElementId: string)
    ensures var once := OnIceConnectionStateChange(w, mount, videoElementId, IceFailed);
      OnIceConnectionStateChange(once, mount, videoElementId, IceDisconnected) == once
  {
    StopPlayingIdempotent(w, mount, videoElementId);
  }

  /** The handler belongs to a connection but stops by mount: when a replaced connection
      fails, the connection now registered under the mount is torn down instead. */
  lemma StaleFailureStopsCurrentSession(w: World, mount: Mount, videoElementId: string)
    requires mount in w.store.webrtcPCs
    ensures var r := OnIceConnectionStateChange(w, mount, videoElementId, IceFailed);
      && mount !in r.store.webrtcPCs && w.store.webrtcPCs[mount] in r.page.closed
  {
  }

  // ---------------------------------------------------------------------------------
  // Delegations

  /** `attachStream`: record the stream's metadata under `id`, then start playback of
      `mount` into the element `id`; the start's boolean is discarded. The metadata does
      not influence the start: registry, started flag and page end up as a start alone
      would leave them. */
  function AttachStream(w: World, id: string, mount: Mount, info: StreamInfo, pc: Conn,
                        encode: string -> string, ex: Exchange): (r: World)
    ensures id in r.store.streams && r.store.streams[id] == Some(info)
    ensures forall k :: k != id ==> (k in r.store.streams <==> k in w.store.streams)
    ensures forall k :: k != id && k in w.store.streams ==> r.store.streams[k] == w.store.streams[k]
    ensures r.store.mediamtxBase == w.store.mediamtxBase && r.store.canToggleStream == w.store.canToggleStream
    ensures var played := PlayWithWhep(w, mount, pc, encode, ex).world;
      && r.store.webrtcPCs == played.store.webrtcPCs
      && r.store.streamStarted == played.store.streamStarted
      && r.store.streamIsPlaying == played.store.streamIsPlaying
      && r.page == played.page
  {
    PlayWithWhep(w.(store := SetStream(w.store, id, Given(info))), mount, pc, encode, ex).world
  }

  /** `requestToWatchStream`: start playback of `mount` into the element `id`. It is a
      start and nothing more: a successful one registers the new connection under the
      mount and sets the started flag, and only the mount's own registry entry, the started
      flag and the closed set can change. */
  function RequestToWatchStream(w: World, mount: Mount, id: string, pc: Conn,
                                encode: string -> string, ex: Exchange): (r: World)
    ensures r.store.streams == w.store.streams && r.store.mediamtxBase == w.store.mediamtxBase
    ensures r.store.streamIsPlaying == w.store.streamIsPlaying && r.page.videos == w.page.videos
    ensures forall m :: m != mount ==> (m in r.store.webrtcPCs <==> m in w.store.webrtcPCs)
    ensures forall m :: m != mount && m in w.store.webrtcPCs ==> r.store.webrtcPCs[m] == w.store.webrtcPCs[m]
    ensures w.page.closed <= r.page.closed <= w.page.closed + {pc}
    ensures r == PlayWithWhep(w, mount, pc, encode, ex).world
    ensures PlayWithWhep(w, mount, pc, encode, ex).ok ==>
      mount in r.store.webrtcPCs && r.store.webrtcPCs[mount] == pc && r.store.streamStarted
    ensures !PlayWithWhep(w, mount, pc, encode, ex).ok ==> r.store == w.store
  {
    PlayWithWhep(w, mount, pc, encode, ex).world
  }

  // ---------------------------------------------------------------------------------
  // An invariant of the registry

  /** Every registered connection is still open, and no connection is registered under
      two mounts. */
  predicate RegistryValid(w: World)
  {
    && (forall m :: m in w.store.webrtcPCs ==> w.store.webrtcPCs[m] !in w.page.closed)
    && (forall m, n :: m in w.store.webrtcPCs && n in w.store.webrtcPCs && m != n ==>
          w.store.webrtcPCs[m] != w.store.webrtcPCs[n])
  }

  /** A connection `new RTCPeerConnection` could return: never closed, never registered. */
  predicate IsFresh(w: World, pc: Conn)
  {
    pc !in w.page.closed && pc !in w.store.webrtcPCs.Values
  }

  /** A start with a fresh connection keeps the registry valid. */
  lemma PlayKeepsRegistryValid(w: World, mount: Mount, pc: Conn, encode: string -> string, ex: Exchange)
    requires RegistryValid(w)
    requires IsFresh(w, pc)
    ensures RegistryValid(PlayWithWhep(w, mount, pc, encode, ex).world)
  {
    var r := PlayWithWhep(w, mount, pc, encode, ex);
    if r.ok {
      forall m | m in r.world.store.webrtcPCs && m != mount
        ensures r.world.store.webrtcPCs[m] != pc
      {
        assert w.store.webrtcPCs[m] in w.store.webrtcPCs.Values;
      }
    }
  }

  /** A stop keeps the registry valid: it only removes an entry and closes that entry's
      connection, which no other mount holds. */
  lemma StopKeepsRegistryValid(w: World, mount: Mount, videoElementId: string)
    requires RegistryValid(w)
    ensures RegistryValid(StopPlaying(w, mount, videoElementId).world)
  {
  }

  /** Starting with a fresh connection, stopping, and every connection event keep the
      registry valid. */
  lemma RegistryValidPreserved(w: World, mount: Mount, pc: Conn, encode: string -> string, ex: Exchange,
                               videoElementId: string, ev: TrackEvent, state: IceConnectionState)
    requires RegistryValid(w)
    requires IsFresh(w, pc)
    ensures RegistryValid(PlayWithWhep(w, mount, pc, encode, ex).world)
    ensures RegistryValid(StopPlaying(w, mount, videoElementId).world)
    ensures RegistryValid(OnIceConnectionStateChange(w, mount, videoElementId, state))
    ensures RegistryValid(OnTrack(w, videoElementId, ev))
  {
    PlayKeepsRegistryValid(w, mount, pc, encode, ex);
    StopKeepsRegistryValid(w, mount, videoElementId);
  }
}
